=== FILE: README.md ===
# cragcast, modelled in Dafny

cragcast ranks UK climbing regions by how good the weather will be on the
chosen days. An hourly forecast series is fetched (and cached) per region,
reduced to a 0–100 suitability score with up to three reasons, annotated with
one weather icon per day, and sorted. A separate assistant endpoint guards a
language-model call with token-bucket rate limits, a time-to-live cache, a
climbing-keyword check and a retry policy.

This project models that deterministic core as immutable datatypes and pure
functions over exact `real` arithmetic, with the network, the key-value store,
the language model and the clock passed in as parameters:

| file | module | models |
|---|---|---|
| wrappers.dfy | Wrappers | `Option` and `Result` |
| series.dfy | Series | the hourly mini series and `sum` / `avg` / `max` / `Math.round` |
| text.dfy | Text | `split`, `join`, `trim`, `toLowerCase`, `includes`, `padStart`, `Number` on digit strings |
| calendar.dfy | Calendar | a proleptic Gregorian civil calendar with day numbers and weekdays |
| dates.dfy | Dates | server/utils/dates.ts |
| icons.dfy | Icons | `dailyIcons` of server/utils/icons.ts (and its copy in the rank endpoint) |
| score.dfy | Score | server/utils/score.ts |
| distance.dfy | Distance | `driveMinutesApprox` |
| forecast.dfy | Forecast | `cacheKey` and `getForecast` of server/utils/forecast.ts |
| retry.dfy | Retry | the two `fetchForecastWithRetry` loops |
| sorting.dfy | Sorting | the stable descending sort used for the ranking |
| rank.dfy | Rank | the handler of server/api/rank.get.ts |
| region.dfy | Region | the handler and the variant classifier of server/api/region.get.ts |
| suggest.dfy | Suggest | the guards of server/api/ai/suggest.post.ts |

A JavaScript `Date` is an `Option<Civil>`: `None` is an invalid date, which
`formatDate` renders as `NaN-NaN-NaN`. The `Date` constructor's month and day
overflow is modelled by stepping from the first of the normalised month, and
years 0–99 map to 1900–1999 as the constructor does. Each upstream call
(forecast fetch, language-model call) is an element of a function
`nat -> outcome` indexed by attempt number. The backoff sleeps of the
forecast retry and of the model retry are returned as delay values.

Notes on the code's behaviour:
- The forecast cache has a single rule: an entry at most three hours old is
  a hit, and anything older is refetched. Entries are written with a TTL of
  10800 seconds.
- `tempTarget` checks membership in the rock list, not the first entry:
  gritstone or sandstone wins over limestone. The region catalog spells
  gritstone `"grit"`, which falls to the default band of 8–16 °C
  (`Score.CatalogGritGetsDefaultBand`).
- 'Close by' is pushed for a drive of at most 60 minutes.
- The region endpoint's classifier uses thresholds of its own (thunder: pop
  ≥ 70, rain ≥ 2, gust ≥ 40; heavy rain: pop ≥ 70 or rain ≥ 4; dark cloud
  from 80 %), so the two endpoints can show different icons for the same day
  (`Region.ClassifiersDiffer`).

## Model

| member | source | states |
|---|---|---|
| Series.Avg | server/utils/icons.ts:23-25 | the mean of an empty array is 0 |
| Series.Max | server/utils/icons.ts:27-29 | the result bounds every element and is one of them; 0 for an empty array |
| Series.Round | server/utils/icons.ts:86-88 | `Math.round` lands within half a unit of its argument, rounding halves up |
| Series.AvgMonotone | server/utils/score.ts:5 | raising any hourly value never lowers the mean |
| Series.AvgBounds | server/utils/score.ts:5 | the mean lies between any lower and upper bound of the values |
| Icons.Classify | server/utils/icons.ts:68-81 | thunder whenever the thunder thresholds hold; the icon is wet exactly when precipitation is likely; when it is not, the cloud mean alone picks sun / light cloud / cloud / dark cloud at 20, 60, 85; snow at ≤ 1.5 °C and sleet up to 3 °C when wet and not thunder |
| Icons.ClassifyExactlyOne | server/utils/icons.ts:68-81 | the priority chain agrees with an order-free description in which exactly one icon's condition holds |
| Icons.Round1 | server/utils/icons.ts:86-88 | the reported aggregates are within 0.05 of the exact value and have one decimal |
| Icons.HoursOf | server/utils/icons.ts:40-43 | exactly the indices of hours starting with the date, ascending |
| Icons.DayIcon | server/utils/icons.ts:45-49 | a date with no hours gives a cloud icon and zero aggregates |
| Icons.DailyIcons | server/utils/icons.ts:38-84 | one entry per requested date, in order |
| Icons.DailyIconsDates | server/utils/icons.ts:38-84 | each entry carries its own input date |
| Icons.NoHoursIsCloud | server/utils/icons.ts:45-49 | when no hour matches the date, the entry is cloud with all aggregates 0 |
| Icons.ThunderWins | server/utils/icons.ts:71-73 | meeting the thunder thresholds gives thunder regardless of temperature and cloud |
| Score.TempTarget | server/utils/score.ts:10-15 | gritstone or sandstone anywhere gives 6–12, else limestone gives 12–18, else 8–16, each as an if-and-only-if |
| Score.CatalogGritGetsDefaultBand | server/utils/score.ts:10-15 | the catalog's "grit" gets the default band, and "grit" with limestone gets the limestone band |
| Score.DrynessPct | server/utils/score.ts:31 | dryness is never negative, at most 100 for non-negative inputs, and 100 with no rain |
| Score.WindScore | server/utils/score.ts:34-37 | the wind sub-score is in [0, 25] and is 25 exactly when the mean wind is ≤ 25 and the gust ≤ 30 |
| Score.FrictionPct | server/utils/score.ts:40-44 | friction is in [0, 1], is 1 exactly inside the band, and is 0 ten degrees or more outside it |
| Score.CloudBonus | server/utils/score.ts:46 | for a cloud cover in [0, 100] the bonus is in [0, 10] |
| Score.DistMultiplier | server/utils/score.ts:49-51 | the multiplier is in [0.6, 1]; it is 1 exactly when the drive is within max(30, limit), and always 1 without a limit |
| Score.TypeMultiplier | server/utils/score.ts:53-57 | the type multiplier is in [0.9, 1], and 1 for any climb type or without affinities |
| Score.BaseScore | server/utils/score.ts:47 | the base score is clamped to [0, 100] |
| Score.Reasons | server/utils/score.ts:61-68 | a reason is pushed exactly when its own condition holds; reasons are in push order; 'Warm, seek shade' excludes 'Good temps' and 'Some sun' |
| Score.PushOrderUnique | server/utils/score.ts:61-68 | two reason lists in push order with the same members are equal |
| Score.Truncate | server/utils/score.ts:69 | `slice(0, 3)` keeps exactly the first min(3, n) reasons, in order, so every pushed reason among the first four kinds survives, and no reason pushed before a kept one is dropped |
| Score.ScoreWindow | server/utils/score.ts:47-69 | the score is an integer in [0, 100]; the reasons are at most three, in push order, each one pushed by its condition, warm excluding the two others; every pushed reason of the first four kinds is reported, when fewer than three are reported every pushed reason is, and no pushed reason is passed over for a later one, so the three slots go to the earliest pushed reasons |
| Score.Scale | server/utils/score.ts:59 | the result is `Math.round` of the product clamped to [0, 100]: the integer n with x − 0.5 < n ≤ x + 0.5 |
| Score.FinalScore | server/utils/score.ts:59 | the final score is in [0, 100] |
| Score.ScoreRegion | server/utils/score.ts:17-70 | `scoreRegion` returns a score in [0, 100] and at most three reasons in push order, each pushed by its condition on the window's aggregates, warm excluding the two others; every pushed reason of the first four kinds is reported, all of them when fewer than three are, and no pushed reason is passed over for a later one |
| Score.PrefixKeepsEarlier | server/utils/score.ts:69 | a prefix of a push-ordered list holds every entry pushed before one of its own entries |
| Score.ScoreNonIncreasingInWetness | server/utils/score.ts:31-59 | with everything else fixed, more mean rain or rain probability never raises the score |
| Score.BaseNonIncreasingInWetness | server/utils/score.ts:31-47 | the same for the base score |
| Score.SeriesScoreNonIncreasingInWetness | server/utils/score.ts:24-59 | raising hourly rain or rain probability values never raises `scoreRegion`'s score |
| Score.UnitTestWindow | tests/unit/score.spec.ts:4 | the unit test's series averages to rain 0, pop 0, wind 10, gust 20, temperature 11, cloud 30 |
| Score.UnitTestParts | tests/unit/score.spec.ts:4-10 | the unit test's input scores 89 with the reasons dry, light winds, good temps |
| Score.UnitTestFinal | tests/unit/score.spec.ts:8 | the unit test's score is 89, above its threshold of 50 |
| Score.UnitTestTruncated | tests/unit/score.spec.ts:4-10 | for the unit test's input the three reasons kept are dry, light winds, good temps |
| Score.UnitTestReasons | server/utils/score.ts:61-68 | for the unit test's input every reason except 'Warm' is pushed before truncation |
| Distance.DriveMinutesApprox | server/utils/distance.ts:15-19 | at least 10 minutes, and otherwise the rounded drive time at 65 km/h |
| Distance.DriveMinutesMonotone | server/utils/distance.ts:17-18 | the estimate never decreases with distance |
| Distance.DriveMinutesThreshold | server/utils/distance.ts:16-18 | below 9.5·65/60 km the estimate is exactly 10, otherwise the rounded exact time |
| Calendar.NextDay | server/utils/dates.ts:17-18 | `setDate(getDate() + 1)` stays a valid date |
| Calendar.DayNumberNext | server/utils/dates.ts:17-18 | the next day is one day number later |
| Calendar.DayNumberAdd | server/utils/dates.ts:41 | adding n days adds n to the day number |
| Calendar.WeekdayNext | server/utils/dates.ts:38 | `getDay` advances by one each day, wrapping Saturday to Sunday |
| Calendar.WeekdayAdd | server/utils/dates.ts:38-41 | n days later the weekday is shifted by n modulo 7 |
| Calendar.WeekdayPeriod | server/utils/dates.ts:27-31 | seven days later the weekday is the same |
| Dates.FormatDate | server/utils/dates.ts:3-8 | an invalid date renders as NaN-NaN-NaN |
| Dates.FormatShape | server/utils/dates.ts:3-8 | for a four-digit year the text is 10 characters, YYYY-MM-DD with zero-padded month and day |
| Dates.OrOne | server/utils/dates.ts:49 | `m \|\| 1`: a missing or zero part becomes 1, any other part is kept |
| Dates.MakeDate | server/utils/dates.ts:49 | the `Date` constructor always normalises to a valid calendar date |
| Dates.ParseDate | server/utils/dates.ts:47-50 | a parsed date is a valid calendar date |
| Dates.MakeDateExact | server/utils/dates.ts:49 | an in-range year, month and day are kept as given |
| Dates.ParseFormat | server/utils/dates.ts:3-50 | parsing a formatted date gives the date back |
| Dates.FormatParseRoundTrip | server/utils/dates.ts:3-50 | formatting a parsed formatted date gives the same text |
| Dates.FormatInjective | server/utils/dates.ts:3-8 | two dates format alike exactly when they are equal |
| Dates.ParseYearOnly | server/utils/dates.ts:48-49 | a bare year parses to the first of January |
| Dates.DaysUntilSaturday | server/utils/dates.ts:38-39 | the offset is in 0..6 and lands on a Saturday; 0 on a Saturday, 6 on a Sunday |
| Dates.WeekendDays | server/utils/dates.ts:36-45 | the weekend is a Saturday 0–6 days ahead and the Sunday after it |
| Dates.GetWeekend | server/utils/dates.ts:36-45 | `getWeekend` returns two dates |
| Dates.PresetDates | server/utils/dates.ts:10-34 | today and any unknown preset give [today]; tomorrow gives [today + 1]; this-weekend gives `getWeekend`; always one or two dates |
| Dates.PresetDays | server/utils/dates.ts:10-34 | the reference days of each preset are valid dates |
| Dates.PresetDaysPlacement | server/utils/dates.ts:14-31 | the preset days lie 0, 1, 0–6 or 7–13 days ahead; weekend pairs are a Saturday and the following Sunday |
| Dates.WeekendLater | server/utils/dates.ts:27-31 | this weekend's Saturday and Sunday moved on by seven days lie 7–13 days ahead and are again a Saturday and the following Sunday |
| Dates.WeekLater | server/utils/dates.ts:27-31 | a Saturday–Sunday pair seven days on is again a Saturday and the following Sunday |
| Dates.PresetDaysAhead | server/utils/dates.ts:10-34 | no preset day comes before today |
| Dates.PresetDatesAreDays | server/utils/dates.ts:10-34 | each preset's strings are the formatted reference days |
| Dates.NextWeekendDates | server/utils/dates.ts:27-31 | the 'next-weekend' parse, add-seven, format round trip gives this weekend's two days seven days later |
| Dates.PresetDaysNotEarlier | server/utils/dates.ts:10-34 | no preset day falls in a year before today's |
| Dates.DistinctFormats | server/utils/dates.ts:42-44 | consecutive days format differently |
| Dates.PresetDistinct | server/utils/dates.ts:22-31 | the two dates of a weekend preset differ |
| Dates.UnitTestNextWeekend | tests/unit/dates.spec.ts:5-9 | from 1 January 2025 the next-weekend dates both have the shape `\d{4}-\d{2}-\d{2}` and parse to 11 and 12 January 2025 |
| Dates.FilterHoursByDates | server/utils/dates.ts:52-55 | exactly the indices whose first ten characters are a requested date, ascending |
| Text.Split | server/utils/dates.ts:48 | splitting gives at least one part and no part holds the separator |
| Text.SplitJoin | server/utils/forecast.ts:33 | splitting a join of separator-free parts gives the parts back |
| Text.JoinInjective | server/utils/forecast.ts:33 | distinct separator-free lists join to distinct strings |
| Text.Pad2 | server/utils/dates.ts:5-6 | `padStart(2, '0')` keeps the value and gives two digits below 100 |
| Text.NatToString | server/utils/dates.ts:4-7 | the decimal rendering is digits only, has no leading zero and reads back as the number |
| Text.ToNumber | server/utils/dates.ts:48 | `Number` of a digit string (or the empty string) is its value; every other form is read as NaN |
| Text.Trim | server/api/rank.get.ts:85 | the result is the contiguous slice of the string between its leading and its trailing whitespace, both of which are removed entirely; it starts and ends with a non-space and is empty exactly for an all-space string |
| Text.CutSlice | server/api/rank.get.ts:85 | cutting whitespace off the front and then off the back leaves a slice with only whitespace on either side |
| Text.TrimSubsequence | server/api/rank.get.ts:85 | the trimmed text holds only characters of the original |
| Text.Utf16Length | server/api/ai/suggest.post.ts:156 | `length` counts UTF-16 code units: between one and two per character, exactly one each below U+10000 and two each above |
| Text.Utf16LengthAppend | server/api/ai/suggest.post.ts:156 | the code-unit length of a concatenation is the sum of the lengths |
| Text.Lower | server/api/ai/suggest.post.ts:46 | `toLowerCase` maps each character, keeping the length |
| Forecast.KeyOf | server/utils/forecast.ts:26-34 | the key's dates part is the comma join of the dates |
| Forecast.KeyOfShared | server/utils/forecast.ts:26-34 | two requests share a key exactly when their rounded coordinates and date lists are equal |
| Forecast.FreshWithinThreeHours | server/utils/forecast.ts:41-43 | an entry is fresh exactly when it is at most 10 800 000 ms old, three hours included |
| Forecast.Succeeded | server/utils/forecast.ts:72-94 | the fetch succeeds exactly when it answered with a 2xx status and a JSON body |
| Forecast.ValueAt | server/utils/forecast.ts:101-106 | a missing column or value reads as 0 |
| Forecast.Project | server/utils/forecast.ts:96-107 | the projected series has seven equally long arrays |
| Forecast.GetForecast | server/utils/forecast.ts:31-119 | fetches exactly when no fresh entry exists; a hit returns the entry unchanged and writes nothing; a failure returns the empty series flagged as error and writes nothing; a success writes exactly when a store exists, under the request's key, with the store time and a TTL of 10800 s |
| Forecast.ProjectSelectsRequestedHours | server/utils/forecast.ts:96-107 | the projected hours are exactly the upstream hours on requested dates, in order, with their values |
| Forecast.NoTimesNoHours | server/utils/forecast.ts:96 | without a time column the series is empty |
| Forecast.HitIsFresh | server/utils/forecast.ts:36-46 | a returned cache entry is at most three hours old |
| Forecast.ResultWellFormed | server/utils/forecast.ts:89-112 | every result has equally long arrays |
| Forecast.ErrorsAreNotCached | server/utils/forecast.ts:89-117 | an error result is never written to the store |
| Forecast.WriteThenHit | server/utils/forecast.ts:36-46 | a written entry is served for the same request within three hours |
| Retry.FirstUsable | server/api/rank.get.ts:14-18 | the first attempt whose series has hours, with all earlier ones unusable |
| Retry.FetchWithRetry | server/api/rank.get.ts:12-28 | at most the allowed calls; returns the first usable outcome or none after all attempts; one delay of 300·2^i ms after each failed attempt, the last included |
| Retry.RankFetch | server/api/rank.get.ts:12-28 | 1 to 3 calls, every attempt before the last unusable, so the result is the first attempt with hours; a result exactly when one of the first three attempts has hours; `null` only after all three calls |
| Retry.RegionFetch | server/api/region.get.ts:12-26 | 1 to 4 calls, every attempt before the last unusable; 503 after four unusable attempts, otherwise the result of the first usable one |
| Retry.BackoffDoubles | server/api/rank.get.ts:23-24 | the backoff starts at 300 ms and doubles |
| Sorting.SortDesc | server/api/rank.get.ts:159 | sorting keeps the length and the elements |
| Sorting.InsertSorted | server/api/rank.get.ts:159 | inserting into a descending list keeps it descending |
| Sorting.InsertWithKey | server/api/rank.get.ts:159 | inserting x puts it in front of the elements of equal score already sorted, so the earlier input element stays first within its score group |
| Sorting.SortDescCorrect | server/api/rank.get.ts:159 | the result is descending, a permutation, and keeps the input order within equal scores (stable) |
| Rank.NonEmpty | server/api/rank.get.ts:85 | `filter(Boolean)` keeps exactly the non-empty parts |
| Rank.NonEmptyAppend | server/api/rank.get.ts:85 | the filter works piecewise over a concatenation, so it keeps order and duplicates |
| Rank.NonEmptySingle | server/api/rank.get.ts:85 | a single part is kept exactly when it is not empty |
| Rank.TrimAll | server/api/rank.get.ts:85 | every part is trimmed |
| Rank.Parts | server/api/rank.get.ts:85 | the parts of a dates parameter are non-empty and hold no comma |
| Rank.Normalise | server/api/rank.get.ts:89 | each date is replaced by `formatDate(parseDate(d))` |
| Rank.ResolveDates | server/api/rank.get.ts:83-89 | an empty parameter gives exactly the two next-weekend preset dates (from the year 100 on); otherwise one date per non-empty trimmed part, in order, each `formatDate(parseDate(part))` |
| Rank.NextWeekendIsCanonical | server/api/rank.get.ts:87-89 | normalising leaves the next-weekend dates as they are |
| Rank.DistanceMins | server/api/rank.get.ts:96-100 | 0 without a home location, otherwise at least 10 |
| Rank.Evaluate | server/api/rank.get.ts:102-153 | a region yields an entry exactly when it is not skipped and some attempt has hours; the entry keeps the region's id and distance, scores in [0, 100] and has one daily icon per date |
| Rank.RankRegions | server/api/rank.get.ts:94-160 | the output is sorted by descending score, is a permutation of the surviving entries, and keeps catalog order among equal scores |
| Rank.CollectAppend | server/api/rank.get.ts:94-111 | the loop works region by region: the entries of a concatenation are the entries of each part, in catalog order |
| Rank.CollectSingle | server/api/rank.get.ts:94-111 | one region contributes its entry, or nothing when it is skipped or failed |
| Rank.CollectStep | server/api/rank.get.ts:94-157 | one pass of the loop: the first region's entry, if any, precedes the entries of the rest |
| Rank.CollectHas | server/api/rank.get.ts:94-157 | every region with an entry has that entry in the collected list |
| Rank.CollectMembership | server/api/rank.get.ts:94-111 | every region with an entry appears in the output, and nothing else does |
| Rank.CollectFrom | server/api/rank.get.ts:111 | each output entry comes from some region's evaluation; failed regions leave no placeholder |
| Rank.SkippedCostsNothing | server/api/rank.get.ts:102-109 | a region is skipped exactly when there is a home, a finite limit and a longer drive; a skipped region costs no fetch and yields nothing; others cost 1 to 3 fetches |
| Rank.NoHomeNoFilter | server/api/rank.get.ts:96-107 | without a home location nothing is skipped and the distance is 0 |
| Rank.EntryFromForecast | server/api/rank.get.ts:113-153 | an entry's score, reasons, daily icons, update time and averages come from the first usable forecast |
| Region.Classify | server/api/region.get.ts:48-58 | thunder exactly when pop ≥ 70, rain ≥ 2 and gust ≥ 40; wet exactly when precipitation is likely; snow, sleet, then heavy rain (pop ≥ 70 or rain ≥ 4) or rain; cloud bands at 20, 60, 80 |
| Region.ClassifiersAgreeOnWetness | server/api/region.get.ts:48-58 | both endpoints' classifiers agree on whether a day is wet |
| Region.ClassifiersDiffer | server/api/region.get.ts:49-56 | concrete days on which the two classifiers disagree at the dark-cloud, thunder and heavy-rain thresholds |
| Region.DayIcon | server/api/region.get.ts:31-58 | a date with no hours gives cloud; otherwise the variant classification of its hours |
| Region.DailyIcons | server/api/region.get.ts:30-58 | one `{date, icon}` entry per requested date, in order, each carrying its own date and the variant icon for it |
| Region.DayWetIffPrecipLikely | server/api/region.get.ts:48-58 | a day's icon is wet exactly when its hours make precipitation likely |
| Region.Find | server/api/region.get.ts:74 | the first catalog entry with the id, or none when no entry has it |
| Region.ResolveDates | server/api/region.get.ts:77-87 | an empty parameter gives exactly tomorrow's date (from the year 100 on); otherwise one date per non-empty trimmed part, in order, each `formatDate(parseDate(part))` |
| Region.TomorrowIsCanonical | server/api/region.get.ts:81-87 | normalising leaves tomorrow's date as it is |
| Region.Handle | server/api/region.get.ts:63-137 | an empty id is 400 and an unknown id 404, both before any fetch; a known region costs 1 to 4 fetches; 503 exactly when all four attempts are unusable; otherwise the report built from the first usable forecast |
| Region.FetchAndReport | server/api/region.get.ts:96-136 | 1 to 4 fetches; 503 exactly when all attempts fail; otherwise the report of the first usable forecast |
| Region.Report | server/api/region.get.ts:98-136 | the report keeps the region's id, name and distance; its score and reasons are exactly `scoreRegion`'s on the forecast (so in [0, 100], at most three); it carries the variant daily icons, the forecast's update time, and the temperature, wind and rain averages rounded to one decimal |
| Suggest.Refill | server/api/ai/suggest.post.ts:18-20 | the refilled tokens never exceed the rate; no whole period leaves the tokens as they were (capped); a whole period refills a non-negative bucket to the rate |
| Suggest.BucketCheck | server/api/ai/suggest.post.ts:16-26 | the key is stored and no other key changes; tokens ≤ rate; the mark advances by whole periods so 0 ≤ now − last < period; allowed exactly when refilled tokens are positive, taking one token then and none otherwise |
| Suggest.Allowed | server/api/ai/suggest.post.ts:16-26 | a run of checks allows at most as many calls as it makes |
| Suggest.AllowedWithinPeriod | server/api/ai/suggest.post.ts:16-26 | within one period exactly min(calls, remaining tokens) checks are allowed |
| Suggest.NewKeyAllowsRate | server/api/ai/suggest.post.ts:17 | a new key starts full, so exactly min(calls, rate) checks within a period pass |
| Suggest.SixthCallRefused | server/api/ai/suggest.post.ts:152 | a new caller gets 5 of 6 requests within a minute |
| Suggest.CheckConsumes | server/api/ai/suggest.post.ts:22-24 | within a period a check is allowed exactly when tokens remain; a denial takes nothing and an allowance exactly one |
| Suggest.CallerKey | server/api/ai/suggest.post.ts:11-15 | the caller key contains the `\|` separator |
| Suggest.CallerIsNotGlobal | server/api/ai/suggest.post.ts:14-80 | no caller shares the model's global bucket |
| Suggest.CacheGet | server/api/ai/suggest.post.ts:27-32 | a missing key gives nothing; an expired entry is deleted and gives nothing; otherwise the stored value |
| Suggest.CacheSet | server/api/ai/suggest.post.ts:33-35 | the entry is stored with expiry now + ttl and other keys are unchanged |
| Suggest.SetThenGet | server/api/ai/suggest.post.ts:27-35 | a stored value is read back until its expiry inclusive and is gone after it |
| Suggest.GetKeepsOthers | server/api/ai/suggest.post.ts:27-32 | reading one key never disturbs another |
| Suggest.EnsureClimbingOnlyIff | server/api/ai/suggest.post.ts:45-49 | a prompt passes exactly when its lower-cased text contains one of the eight keywords |
| Suggest.ClimbingImpliesClimb | server/api/ai/suggest.post.ts:47 | any text containing "climbing" contains "climb" |
| Suggest.UpperCaseKeyword | server/api/ai/suggest.post.ts:46-47 | the check ignores letter case |
| Suggest.ReplyHtml | server/api/ai/suggest.post.ts:124 | a non-empty reply is used as is; a missing or empty one gives exactly the "No response" paragraph |
| Suggest.LlmRetry | server/api/ai/suggest.post.ts:113-147 | 1 to 3 calls; every call but the last failed with 429 or 5xx; a reply ends the loop with its HTML; a non-retryable error stops at once with the fallback; a delay of 500·2^i ms follows each retryable failure |
| Suggest.LlmSuggest | server/api/ai/suggest.post.ts:65-148 | without a key, or when the global bucket of 30 per minute refuses, the fallback is returned without a model call; otherwise 1 to 3 calls, all but the last failing with 429/5xx, and the answer is the last call's reply (or "No response") exactly when that call replied, else the "request limited" list, which before the third call means the last error was not retryable |
| Suggest.Handle | server/api/ai/suggest.post.ts:150-171 | rate limit (429), then prompt length under 8 UTF-16 code units (400), then keywords (400), all before any model call; a request passing all three is answered; a refusal changes only the caller's bucket; a cache hit is returned without a call; on a miss the answer is `llmSuggest`'s (no key, global limit, or the retried reply), the global bucket is charged when a key is set, and the answer is cached for five minutes |

## Left out
- Request interleaving in the assistant endpoint: `Suggest.Handle` runs each request to completion on the in-memory state. The handler awaits the body, the ranking and the model call between its caller check, cache read, global check and cache write, so in the server two concurrent misses on one key both call the model.
- Query parsing: `hasHome`, the drive limit, the id and the dates parameter are inputs. The two endpoints parse `maxDriveMins` differently. `?maxDriveMins=` is a limit of 0 in the rank endpoint (`!== undefined`), which with a home skips every region, but no limit in the region endpoint (truthiness). `?lat=&lon=` reads as a home at (0, 0) in both.

- Network, key-value store and language-model I/O (`fetch`, `kv.get` / `kv.put`, the OpenAI client, `ofetch`): their outcomes are inputs indexed by attempt.
- `sleep` / `setTimeout`: `FetchWithRetry` and `LlmRetry` return their backoff delays as values; `RankFetch` and `RegionFetch` drop them, and the rank loop's 100 ms pause between regions is not modelled; time does not pass in the model.
- `getRank` and `getMWISSummary` in the assistant endpoint: I/O whose results only feed the HTML text.
- The fallback and link HTML assembly in the assistant endpoint, the Windy / BBC / Met Office / UKC link building and `encodeURIComponent`: string formatting, modelled only as which fallback is shown.
- `cachedFetch` and `externalCache`: not called by the handler.
- `haversineKm`: trigonometric floating point; the great-circle distance of each region is an input (`km`).
- IEEE-754 arithmetic, `toFixed` and `String(number)`: all numbers are exact reals. The forecast cache key is a datatype of the coordinates in hundredths (`Math.round(x·100)`) and the joined dates rather than a `toFixed(2)` string.
- Text.ToNumber: reads only the empty string and runs of decimal digits; the other forms `Number` accepts (signs, decimals, surrounding whitespace, exponents such as `1e1`, `0x`/`0b`/`0o` prefixes, `Infinity`) are read as NaN, so `parseDate` of a part written that way gives a different date than JavaScript.
- JavaScript coercions: NaN limits propagating to a NaN score; `|| 0` on NaN entries. Series are assumed well-formed and a drive limit is finite or unlimited.
- Time zones and daylight saving: a `Date` is a local civil day. A `Date` outside the years 100–9999 is not checked against JavaScript's time-value range.
- `Date.now()`: each operation takes the clock reading as a parameter. The assistant handler uses one reading per request, and the forecast fetch has separate readings for the cache check, the result stamp and the store write.
- The `updatedAt` ISO timestamp is an integer time rather than a string.
- The `coords: { lat, lon }` field of the rank and region responses: the catalog's coordinates passed through unchanged.
- The region response's `area` field (`(region as any).area`): catalog data passed through unchanged, outside the modelled region record.
- The assistant cache key `JSON.stringify({ prompt, prefs })` is the pair of the prompt and the serialised preferences, which that serialisation determines injectively.
- server/utils/regions.ts catalog data: the catalog is a parameter; only the spelling "grit" is used, in a lemma.
- `typeAffinity`: modelled in the scorer, but the two endpoints pass neither `climbType` nor `typeAffinity`, so the type multiplier is always 1.
- Unicode in `toLowerCase` and `trim`: ASCII letters, and the six ASCII whitespace characters (space, tab, line feed, vertical tab, form feed, carriage return) only; `trim` also strips U+00A0, U+FEFF, the line and paragraph separators and the other Unicode space separators, which the model keeps.
- server/api/warm.post.ts, worker-cron, server/utils/logger.ts, the composables, plugins and configuration files: concurrency, scheduling, telemetry and UI code outside the modelled core.
- Dates.PresetDistinct: proves that the two weekend dates differ, not the lexicographic order of their strings, because Dafny's `<` on strings is the proper-prefix order.
- Dates.ParseFormat: the round trip is proved for years 100 and above, since the `Date` constructor maps years 0–99 to the 1900s.

=== FILE: calendar.dfy ===
/**
 * A proleptic Gregorian civil calendar: the local calendar days that the
 * source reads and shifts through JavaScript `Date` (`getDay`, `setDate`,
 * month and day overflow in the `Date` constructor). Time of day, time
 * zones and daylight saving are not modelled.
 */
module Calendar {

  datatype Civil = Civil(year: int, month: int, day: int)

  predicate IsLeap(y: int) {
    y % 4 == 0 && (y % 100 != 0 || y % 400 == 0)
  }

  function DaysInMonth(y: int, m: int): (n: int)
    requires 1 <= m <= 12
    ensures 28 <= n <= 31
  {
    if m == 2 then (if IsLeap(y) then 29 else 28)
    else if m == 4 || m == 6 || m == 9 || m == 11 then 30
    else 31
  }

  predicate Valid(c: Civil) {
    1 <= c.month <= 12 && 1 <= c.day <= DaysInMonth(c.year, c.month)
  }

  /** The following calendar day (`setDate(getDate() + 1)`). */
  function NextDay(c: Civil): (r: Civil)
    requires Valid(c)
    ensures Valid(r)
  {
    if c.day < DaysInMonth(c.year, c.month) then Civil(c.year, c.month, c.day + 1)
    else if c.month < 12 then Civil(c.year, c.month + 1, 1)
    else Civil(c.year + 1, 1, 1)
  }

  /** `n` days later (`setDate(getDate() + n)` for n >= 0). */
  function AddDays(c: Civil, n: nat): (r: Civil)
    requires Valid(c)
    ensures Valid(r)
    decreases n
  {
    if n == 0 then c else AddDays(NextDay(c), n - 1)
  }

  /** Days from 0001-01-01 to the first of January of year `y`. */
  function DaysBeforeYear(y: int): int {
    365 * (y - 1) + (y - 1) / 4 - (y - 1) / 100 + (y - 1) / 400
  }

  /** Days from the first of January to the first of month `m`. */
  function DaysBeforeMonth(y: int, m: int): (n: int)
    requires 1 <= m <= 12
    ensures m == 12 ==> n + DaysInMonth(y, m) == 365 + (if IsLeap(y) then 1 else 0)
  {
    var base := [0, 31, 59, 90, 120, 151, 181, 212, 243, 273, 304, 334][m - 1];
    base + (if m > 2 && IsLeap(y) then 1 else 0)
  }

  lemma MonthStep(y: int, m: int)
    requires 1 <= m < 12
    ensures DaysBeforeMonth(y, m + 1) == DaysBeforeMonth(y, m) + DaysInMonth(y, m)
  {
  }

  /** Days since 0001-01-01 (day 0, a Monday). */
  function DayNumber(c: Civil): int
    requires Valid(c)
  {
    DaysBeforeYear(c.year) + DaysBeforeMonth(c.year, c.month) + c.day - 1
  }

  /** `getDay()`: 0 is Sunday, 6 is Saturday. */
  function Weekday(c: Civil): (w: int)
    requires Valid(c)
    ensures 0 <= w < 7
  {
    (DayNumber(c) + 1) % 7
  }

  /** `y / k - (y - 1) / k` is 1 exactly when k divides y (k = 4, 100, 400). */
  lemma DivStep4(y: int)
    ensures y / 4 - (y - 1) / 4 == (if y % 4 == 0 then 1 else 0)
  {
  }

  lemma DivStep100(y: int)
    ensures y / 100 - (y - 1) / 100 == (if y % 100 == 0 then 1 else 0)
  {
  }

  lemma DivStep400(y: int)
    ensures y / 400 - (y - 1) / 400 == (if y % 400 == 0 then 1 else 0)
  {
  }

  /** A year holds 365 days, or 366 in a leap year. */
  lemma YearLength(y: int)
    ensures DaysBeforeYear(y + 1) == DaysBeforeYear(y) + 365 + (if IsLeap(y) then 1 else 0)
  {
    var d4, d100, d400 := y / 4 - (y - 1) / 4, y / 100 - (y - 1) / 100, y / 400 - (y - 1) / 400;
    DivStep4(y);
    DivStep100(y);
    DivStep400(y);
    DivisorsOfCentury(y);
    assert DaysBeforeYear(y + 1) - DaysBeforeYear(y) == 365 + d4 - d100 + d400;
  }

  /** A multiple of 400 is a multiple of 100, which is a multiple of 4. */
  lemma DivisorsOfCentury(y: int)
    ensures y % 400 == 0 ==> y % 100 == 0
    ensures y % 100 == 0 ==> y % 4 == 0
  {
    if y % 400 == 0 {
      var k := y / 400;
      assert y == 100 * (4 * k);
      MultipleOf100(4 * k);
    }
    if y % 100 == 0 {
      var k := y / 100;
      assert y == 4 * (25 * k);
      MultipleOf4(25 * k);
    }
  }

  lemma MultipleOf100(m: int)
    ensures (100 * m) % 100 == 0
  {
  }

  lemma MultipleOf4(m: int)
    ensures (4 * m) % 4 == 0
  {
  }

  /** A valid date's day number falls inside its year. */
  lemma DayNumberInYear(c: Civil)
    requires Valid(c)
    ensures DaysBeforeYear(c.year) <= DayNumber(c) < DaysBeforeYear(c.year + 1)
  {
    YearLength(c.year);
    DaysBeforeMonthBound(c.year, c.month);
  }

  lemma {:induction false} DaysBeforeMonthBound(y: int, m: int)
    requires 1 <= m <= 12
    ensures DaysBeforeMonth(y, m) + DaysInMonth(y, m) <= 365 + (if IsLeap(y) then 1 else 0)
    decreases 12 - m
  {
    if m < 12 {
      MonthStep(y, m);
      DaysBeforeMonthBound(y, m + 1);
    }
  }

  /** The next day is one day number later. */
  lemma DayNumberNext(c: Civil)
    requires Valid(c)
    ensures DayNumber(NextDay(c)) == DayNumber(c) + 1
  {
    if c.day < DaysInMonth(c.year, c.month) {
    } else if c.month < 12 {
      MonthStep(c.year, c.month);
    } else {
      YearLength(c.year);
    }
  }

  /** Adding n days adds n to the day number. */
  lemma {:induction false} DayNumberAdd(c: Civil, n: nat)
    requires Valid(c)
    ensures DayNumber(AddDays(c, n)) == DayNumber(c) + n
    decreases n
  {
    if n > 0 {
      DayNumberNext(c);
      DayNumberAdd(NextDay(c), n - 1);
    }
  }

  lemma {:induction false} DaysBeforeYearMonotone(y1: int, y2: int)
    requires y1 <= y2
    ensures DaysBeforeYear(y1) + 365 * (y2 - y1) <= DaysBeforeYear(y2)
    decreases y2 - y1
  {
    if y1 < y2 {
      YearLength(y1);
      DaysBeforeYearMonotone(y1 + 1, y2);
    }
  }

  /** Day numbers follow calendar order, so distinct dates have distinct numbers. */
  lemma DayNumberOrder(a: Civil, b: Civil)
    requires Valid(a) && Valid(b)
    ensures a.year < b.year ==> DayNumber(a) < DayNumber(b)
    ensures a.year == b.year && a.month < b.month ==> DayNumber(a) < DayNumber(b)
    ensures DayNumber(a) == DayNumber(b) ==> a == b
  {
    if a.year < b.year {
      YearOrder(a, b);
    } else if b.year < a.year {
      YearOrder(b, a);
    } else if a.month != b.month {
      if a.month < b.month {
        MonthOrder(a.year, a.month, b.month);
      } else {
        MonthOrder(a.year, b.month, a.month);
      }
    }
  }

  lemma YearOrder(a: Civil, b: Civil)
    requires Valid(a) && Valid(b) && a.year < b.year
    ensures DayNumber(a) < DayNumber(b)
  {
    DayNumberInYear(a);
    DayNumberInYear(b);
    DaysBeforeYearMonotone(a.year + 1, b.year);
  }

  lemma {:induction false} MonthOrder(y: int, m1: int, m2: int)
    requires 1 <= m1 < m2 <= 12
    ensures DaysBeforeMonth(y, m1) + DaysInMonth(y, m1) <= DaysBeforeMonth(y, m2)
    decreases m2 - m1
  {
    MonthStep(y, m1);
    if m1 + 1 < m2 {
      MonthOrder(y, m1 + 1, m2);
    }
  }

  /** The weekday advances by one each day, wrapping Saturday to Sunday. */
  lemma WeekdayNext(c: Civil)
    requires Valid(c)
    ensures Weekday(NextDay(c)) == (Weekday(c) + 1) % 7
  {
    DayNumberNext(c);
    ModShift(DayNumber(c) + 1, 1);
  }

  lemma ModShift(x: int, n: nat)
    ensures (x + n) % 7 == (x % 7 + n) % 7
  {
  }

  lemma WeekdayAdd(c: Civil, n: nat)
    requires Valid(c)
    ensures Weekday(AddDays(c, n)) == (Weekday(c) + n) % 7
  {
    DayNumberAdd(c, n);
    ModShift(DayNumber(c) + 1, n);
  }

  /** A week later the weekday is the same. */
  lemma WeekdayPeriod(c: Civil, n: nat)
    requires Valid(c) && n == 7
    ensures Weekday(AddDays(c, n)) == Weekday(c)
  {
    DayNumberAdd(c, n);
    ModPeriod(DayNumber(c) + 1);
  }

  lemma ModPeriod(x: int)
    ensures (x + 7) % 7 == x % 7
  {
  }

  /** Within a month, adding days just moves the day of month. */
  lemma {:induction false} AddDaysInMonth(c: Civil, n: nat)
    requires Valid(c) && c.day + n <= DaysInMonth(c.year, c.month)
    ensures AddDays(c, n) == Civil(c.year, c.month, c.day + n)
    decreases n
  {
    if n > 0 {
      AddDaysInMonth(NextDay(c), n - 1);
    }
  }

  /** Fewer than 366 days on, the year has advanced by at most one. */
  lemma YearAfter(c: Civil, n: nat)
    requires Valid(c) && n <= 365
    ensures c.year <= AddDays(c, n).year <= c.year + 1
  {
    var r := AddDays(c, n);
    DayNumberAdd(c, n);
    DayNumberOrder(r, c);
    DayNumberInYear(c);
    DayNumberInYear(r);
    if r.year >= c.year + 2 {
      DaysBeforeYearMonotone(c.year + 1, r.year);
    }
  }
}

=== FILE: dates.dfy ===
/**
 * The date-window resolver of server/utils/dates.ts: formatting and parsing
 * of `YYYY-MM-DD` strings through JavaScript `Date`, the weekend and preset
 * windows, and the selection of hours by date prefix.
 *
 * A JavaScript `Date` is modelled as `Option<Civil>`: `None` is the
 * "Invalid Date" that `new Date(NaN, ...)` yields.
 */
module Dates {
  import opened Wrappers
  import opened Text
  import opened Calendar

  type JsDate = Option<Civil>

  datatype Preset = Today | Tomorrow | ThisWeekend | NextWeekend | Custom

  /** `String(y)` for any integer year. */
  function YearString(y: int): string {
    if y >= 0 then NatToString(y) else "-" + NatToString(-y)
  }

  /** `formatDate(d)`; an invalid date renders every field as NaN. */
  function FormatDate(d: JsDate): (s: string)
    requires d.Some? ==> Valid(d.value)
    ensures d.None? ==> s == "NaN-NaN-NaN"
  {
    match d
    case None => "NaN-NaN-NaN"
    case Some(c) => YearString(c.year) + "-" + Pad2(c.month) + "-" + Pad2(c.day)
  }

  /** Ten characters `DDDD-DD-DD`. */
  predicate DateShaped(s: string) {
    |s| == 10 && s[4] == '-' && s[7] == '-'
    && AllDigits(s[..4]) && AllDigits(s[5..7]) && AllDigits(s[8..])
  }

  /** A date with a four-digit year formats as ten characters `YYYY-MM-DD`. */
  lemma FormatShape(c: Civil)
    requires Valid(c) && FourDigitYear(c)
    ensures DateShaped(FormatDate(Some(c)))
  {
    var ys, ms, ds := NatToString(c.year), Pad2(c.month), Pad2(c.day);
    NatToStringLength(c.year, 3);
    var s := FormatDate(Some(c));
    assert s == ys + "-" + ms + "-" + ds;
    assert |ys| == 4 && |ms| == 2 && |ds| == 2;
    assert s[..4] == ys && s[4] == '-';
    assert s[5..7] == ms && s[7] == '-';
    assert s[8..] == ds;
  }

  /** `x || 1` on a parsed number: NaN and 0 both become 1. */
  function OrOne(n: Option<nat>): (r: nat)
    ensures n.None? || n.value == 0 ==> r == 1
    ensures n.Some? && n.value >= 1 ==> r == n.value
  {
    if n.Some? && n.value != 0 then n.value else 1
  }

  /**
   * `new Date(y, monthIndex, d)` for a year, a month index >= 0 and a day
   * >= 1: a year 0..99 means 1900..1999, and month and day overflow roll
   * forward into later months and years.
   */
  function MakeDate(y: nat, monthIndex: nat, d: nat): (c: Civil)
    requires d >= 1
    ensures Valid(c)
  {
    var year := if y <= 99 then 1900 + y else y;
    AddDays(Civil(year + monthIndex / 12, monthIndex % 12 + 1, 1), d - 1)
  }

  /** `parseDate(s)`: split on '-', read each part with `Number`. */
  function ParseDate(s: string): (d: JsDate)
    ensures d.Some? ==> Valid(d.value)
  {
    var parts := Split(s, '-');
    match ToNumber(parts[0])
    case None => None
    case Some(y) =>
      var m := OrOne(if |parts| > 1 then ToNumber(parts[1]) else None);
      var day := OrOne(if |parts| > 2 then ToNumber(parts[2]) else None);
      Some(MakeDate(y, m - 1, day))
  }

  predicate FourDigitYear(c: Civil) { 1000 <= c.year <= 9999 }

  lemma DigitsHaveNoDash(s: string)
    requires AllDigits(s)
    ensures '-' !in s
  {
    assert forall i :: 0 <= i < |s| ==> s[i] != '-';
  }

  /** A formatted date splits back into its three numeric fields. */
  lemma FormatSplit(c: Civil)
    requires Valid(c) && c.year >= 0
    ensures Split(FormatDate(Some(c)), '-') == [NatToString(c.year), Pad2(c.month), Pad2(c.day)]
  {
    var ys, ms, ds := NatToString(c.year), Pad2(c.month), Pad2(c.day);
    assert FormatDate(Some(c)) == Join([ys, ms, ds], '-') by {
      JoinThree(ys, ms, ds, '-');
    }
    DigitsHaveNoDash(ys);
    DigitsHaveNoDash(ms);
    DigitsHaveNoDash(ds);
    SplitJoin([ys, ms, ds], '-');
  }

  /** `new Date(y, m - 1, d)` on an in-range date is that very date. */
  lemma MakeDateExact(c: Civil)
    requires Valid(c) && c.year > 99
    ensures MakeDate(c.year, c.month - 1, c.day) == c
  {
    assert (c.month - 1) / 12 == 0 && (c.month - 1) % 12 + 1 == c.month;
    AddDaysInMonth(Civil(c.year, c.month, 1), c.day - 1);
  }

  /**
   * Parsing a formatted date gives the date back, for years from 100 on
   * (earlier ones are read as 1900..1999).
   */
  lemma ParseFormat(c: Civil)
    requires Valid(c) && c.year >= 100
    ensures ParseDate(FormatDate(Some(c))) == Some(c)
  {
    var ys, ms, ds := NatToString(c.year), Pad2(c.month), Pad2(c.day);
    FormatSplit(c);
    assert ToNumber(ys) == Some(c.year);
    assert ToNumber(ms) == Some(c.month) && ToNumber(ds) == Some(c.day);
    MakeDateExact(c);
  }

  /** Formatting then parsing is the identity on dates from the year 100. */
  lemma FormatParseRoundTrip(c: Civil)
    requires Valid(c) && c.year >= 100
    ensures FormatDate(ParseDate(FormatDate(Some(c)))) == FormatDate(Some(c))
  {
    ParseFormat(c);
  }

  /** Dates from the year 100 on format alike exactly when they are equal. */
  lemma FormatInjective(a: Civil, b: Civil)
    requires Valid(a) && a.year >= 100 && Valid(b) && b.year >= 100
    ensures FormatDate(Some(a)) == FormatDate(Some(b)) <==> a == b
  {
    ParseFormat(a);
    ParseFormat(b);
  }

  /** A bare year, with month and day missing, means the first of January. */
  lemma ParseYearOnly(y: nat)
    requires y >= 100
    ensures ParseDate(NatToString(y)) == Some(Civil(y, 1, 1))
  {
    var s := NatToString(y);
    DigitsHaveNoDash(s);
    SplitNoSep(s, '-');
    assert ToNumber(s) == Some(y);
    assert MakeDate(y, 0, 1) == Civil(y, 1, 1);
  }

  /** `(6 - day + 7) % 7`: days until the coming Saturday, 0 on a Saturday. */
  function DaysUntilSaturday(c: Civil): (n: nat)
    requires Valid(c)
    ensures n <= 6 && Weekday(c) + n == 6
    ensures Weekday(AddDays(c, n)) == 6
    ensures Weekday(c) == 6 ==> n == 0
    ensures Weekday(c) == 0 ==> n == 6
  {
    WeekdayAdd(c, (6 - Weekday(c) + 7) % 7);
    (6 - Weekday(c) + 7) % 7
  }

  /** The Saturday and Sunday `getWeekend` picks, as calendar days. */
  function WeekendDays(c: Civil): (p: (Civil, Civil))
    requires Valid(c)
    ensures Valid(p.0) && Valid(p.1)
    ensures Weekday(p.0) == 6 && Weekday(p.1) == 0
    ensures 0 <= DayNumber(p.0) - DayNumber(c) <= 6
    ensures DayNumber(p.1) == DayNumber(p.0) + 1
  {
    var n := DaysUntilSaturday(c);
    var sat := AddDays(c, n);
    DayNumberAdd(c, n);
    DayNumberNext(sat);
    WeekdayNext(sat);
    (sat, NextDay(sat))
  }

  /** `getWeekend(d)` */
  function GetWeekend(c: Civil): (w: seq<string>)
    requires Valid(c)
    ensures |w| == 2
  {
    var (sat, sun) := WeekendDays(c);
    [FormatDate(Some(sat)), FormatDate(Some(sun))]
  }

  /** `presetDates(preset, now)`, with `now` already reduced to its local day. */
  function PresetDates(preset: Preset, today: Civil): (r: seq<string>)
    requires Valid(today)
    ensures 1 <= |r| <= 2
    ensures preset == Today || preset == Custom ==> r == [FormatDate(Some(today))]
    ensures preset == Tomorrow ==> r == [FormatDate(Some(NextDay(today)))]
    ensures preset == ThisWeekend ==> r == GetWeekend(today)
  {
    match preset
    case Today => [FormatDate(Some(today))]
    case Tomorrow => [FormatDate(Some(NextDay(today)))]
    case ThisWeekend => GetWeekend(today)
    case Custom => [FormatDate(Some(today))]
    case NextWeekend => WeekAfter(GetWeekend(today)[0])
  }

  /**
   * The 'next-weekend' step: parse the Saturday back, add seven days, and
   * format it with the day after.
   */
  function WeekAfter(saturday: string): (r: seq<string>)
    ensures |r| == 2
  {
    match ParseDate(saturday)
    case None => ["NaN-NaN-NaN", "NaN-NaN-NaN"]
    case Some(sat0) =>
      var sat := AddDays(sat0, 7);
      [FormatDate(Some(sat)), FormatDate(Some(NextDay(sat)))]
  }

  /**
   * The calendar days each preset stands for, written directly rather than
   * through the string round trip that 'next-weekend' takes.
   */
  function PresetDays(preset: Preset, today: Civil): (days: seq<Civil>)
    requires Valid(today)
    ensures 1 <= |days| <= 2
    ensures forall k :: 0 <= k < |days| ==> Valid(days[k])
  {
    var (sat, sun) := WeekendDays(today);
    match preset
    case Today => [today]
    case Custom => [today]
    case Tomorrow => [NextDay(today)]
    case ThisWeekend => [sat, sun]
    case NextWeekend => [AddDays(sat, 7), AddDays(sun, 7)]
  }

  /**
   * Where the preset days fall: today, tomorrow, a Saturday within the
   * coming six days or one seven to thirteen days on, followed by its
   * Sunday.
   */
  lemma PresetDaysPlacement(preset: Preset, today: Civil)
    requires Valid(today)
    ensures var days := PresetDays(preset, today);
      var ahead := DayNumber(days[0]) - DayNumber(today);
      && (preset == Today || preset == Custom ==> |days| == 1 && ahead == 0)
      && (preset == Tomorrow ==> |days| == 1 && ahead == 1)
      && (preset == ThisWeekend ==> |days| == 2 && 0 <= ahead <= 6)
      && (preset == NextWeekend ==> |days| == 2 && 7 <= ahead <= 13)
      && (|days| == 2 ==>
            DayNumber(days[1]) == DayNumber(days[0]) + 1
            && Weekday(days[0]) == 6 && Weekday(days[1]) == 0)
  {
    match preset {
      case Today =>
      case Custom =>
      case Tomorrow => DayNumberNext(today);
      case ThisWeekend =>
      case NextWeekend => WeekendLater(today);
    }
  }

  /** The 'this-weekend' pair moved on by seven days is again a weekend. */
  lemma WeekendLater(today: Civil)
    requires Valid(today)
    ensures var (sat, sun) := WeekendDays(today);
      var ahead := DayNumber(AddDays(sat, 7)) - DayNumber(today);
      && 7 <= ahead <= 13
      && DayNumber(AddDays(sun, 7)) == DayNumber(AddDays(sat, 7)) + 1
      && Weekday(AddDays(sat, 7)) == 6 && Weekday(AddDays(sun, 7)) == 0
  {
    var (sat, sun) := WeekendDays(today);
    DayNumberAdd(sat, 7);
    WeekLater(sat, sun, 7);
  }

  /** A Saturday and the following Sunday, a week later, are again such a pair. */
  lemma WeekLater(sat: Civil, sun: Civil, n: nat)
    requires Valid(sat) && Valid(sun) && DayNumber(sun) == DayNumber(sat) + 1
    requires Weekday(sat) == 6 && Weekday(sun) == 0 && n == 7
    ensures DayNumber(AddDays(sun, n)) == DayNumber(AddDays(sat, n)) + 1
    ensures Weekday(AddDays(sat, n)) == 6 && Weekday(AddDays(sun, n)) == 0
  {
    DayNumberAdd(sat, n);
    DayNumberAdd(sun, n);
    WeekdayPeriod(sat, n);
    WeekdayPeriod(sun, n);
  }

  lemma {:induction false} AddDaysNextCommute(c: Civil, n: nat)
    requires Valid(c)
    ensures AddDays(NextDay(c), n) == NextDay(AddDays(c, n))
    decreases n
  {
    if n > 0 {
      AddDaysNextCommute(NextDay(c), n - 1);
    }
  }

  lemma WeekAfterParsed(s: string, sat: Civil)
    requires Valid(sat) && ParseDate(s) == Some(sat)
    ensures WeekAfter(s) == [FormatDate(Some(AddDays(sat, 7))), FormatDate(Some(NextDay(AddDays(sat, 7))))]
  {
  }

  /**
   * The preset strings are the preset days formatted; in particular
   * 'next-weekend' is the 'this-weekend' pair moved on by seven days.
   */
  lemma PresetDatesAreDays(preset: Preset, today: Civil)
    requires Valid(today) && today.year >= 100
    ensures var r, days := PresetDates(preset, today), PresetDays(preset, today);
      |r| == |days| && forall k :: 0 <= k < |r| ==> r[k] == FormatDate(Some(days[k]))
  {
    if preset == NextWeekend {
      NextWeekendDates(today);
    } else if preset == ThisWeekend {
      var (sat, sun) := WeekendDays(today);
      assert PresetDays(preset, today) == [sat, sun];
      assert PresetDates(preset, today) == [FormatDate(Some(sat)), FormatDate(Some(sun))];
    }
  }

  /** The 'next-weekend' string round trip lands on the weekend a week after this one. */
  lemma NextWeekendDates(today: Civil)
    requires Valid(today) && today.year >= 100
    ensures var (sat, sun) := WeekendDays(today);
      PresetDates(NextWeekend, today) == [FormatDate(Some(AddDays(sat, 7))), FormatDate(Some(AddDays(sun, 7)))]
  {
    var (sat, sun) := WeekendDays(today);
    assert GetWeekend(today)[0] == FormatDate(Some(sat));
    YearAfter(today, DaysUntilSaturday(today));
    ParseFormat(sat);
    WeekAfterParsed(FormatDate(Some(sat)), sat);
    AddDaysNextCommute(sat, 7);
  }

  /** No preset day lies in a year before today's. */
  lemma PresetDaysNotEarlier(preset: Preset, today: Civil)
    requires Valid(today)
    ensures var days := PresetDays(preset, today);
      forall k :: 0 <= k < |days| ==> days[k].year >= today.year
  {
    var days := PresetDays(preset, today);
    PresetDaysAhead(preset, today);
    forall k | 0 <= k < |days|
      ensures days[k].year >= today.year
    {
      NotEarlierYear(days[k], today);
    }
  }

  /** Every day of `days` is a valid date no earlier than `today`. */
  predicate NotBefore(days: seq<Civil>, today: Civil)
    requires Valid(today)
  {
    forall k :: 0 <= k < |days| ==> Valid(days[k]) && DayNumber(today) <= DayNumber(days[k])
  }

  /** No preset day comes before today. */
  lemma PresetDaysAhead(preset: Preset, today: Civil)
    requires Valid(today)
    ensures NotBefore(PresetDays(preset, today), today)
  {
    if preset == Tomorrow {
      DayNumberNext(today);
    } else if preset == NextWeekend {
      NextWeekendAhead(today);
    }
  }

  lemma NextWeekendAhead(today: Civil)
    requires Valid(today)
    ensures NotBefore(PresetDays(NextWeekend, today), today)
  {
    var (sat, sun) := WeekendDays(today);
    DayNumberAdd(sat, 7);
    DayNumberAdd(sun, 7);
    assert PresetDays(NextWeekend, today) == [AddDays(sat, 7), AddDays(sun, 7)];
  }

  lemma NotEarlierYear(c: Civil, today: Civil)
    requires Valid(c) && Valid(today) && DayNumber(today) <= DayNumber(c)
    ensures today.year <= c.year
  {
    DayNumberOrder(c, today);
  }

  lemma DistinctFormats(a: Civil, b: Civil)
    requires Valid(a) && a.year >= 100 && Valid(b) && b.year >= 100
    requires DayNumber(b) == DayNumber(a) + 1
    ensures FormatDate(Some(a)) != FormatDate(Some(b))
  {
    FormatInjective(a, b);
  }

  /** No preset window holds the same date twice. */
  lemma PresetDistinct(preset: Preset, today: Civil)
    requires Valid(today) && today.year >= 100
    ensures var r := PresetDates(preset, today);
      |r| == 2 ==> r[0] != r[1]
  {
    var r, days := PresetDates(preset, today), PresetDays(preset, today);
    PresetDatesAreDays(preset, today);
    PresetDaysPlacement(preset, today);
    if |r| == 2 {
      var a, b := days[0], days[1];
      NotEarlierYear(a, today);
      NotEarlierYear(b, today);
      DistinctFormats(a, b);
      assert r[0] == FormatDate(Some(a)) && r[1] == FormatDate(Some(b));
    }
  }

  /**
   * On Wednesday 1 January 2025 the next weekend is Saturday 11 and
   * Sunday 12 January, both rendered as `\d{4}-\d{2}-\d{2}`.
   */
  lemma UnitTestNextWeekend(today: Civil)
    requires today == Civil(2025, 1, 1)
    ensures var r := PresetDates(NextWeekend, today);
      && |r| == 2 && DateShaped(r[0]) && DateShaped(r[1])
      && ParseDate(r[0]) == Some(Civil(2025, 1, 11)) && ParseDate(r[1]) == Some(Civil(2025, 1, 12))
  {
    var days := PresetDays(NextWeekend, today);
    NewYear2025Weekend(today);
    PresetDatesAreDays(NextWeekend, today);
    FormatShape(days[0]);
    FormatShape(days[1]);
    ParseFormat(days[0]);
    ParseFormat(days[1]);
  }

  lemma NewYear2025Weekend(today: Civil)
    requires today == Civil(2025, 1, 1)
    ensures PresetDays(NextWeekend, today) == [Civil(2025, 1, 11), Civil(2025, 1, 12)]
  {
    assert DayNumber(today) == 739251;
    assert DaysUntilSaturday(today) == 3;
    AddDaysInMonth(today, 3);
    AddDaysInMonth(Civil(2025, 1, 4), 7);
    AddDaysInMonth(Civil(2025, 1, 5), 7);
  }

  /** `t.slice(0, 10)`: the date part of an hourly timestamp. */
  function DatePart(t: string): string {
    Take(t, 10)
  }

  /**
   * `filterHoursByDates(times, dates)`, keeping the indices: the hours whose
   * date part is one of the requested dates, in ascending order.
   */
  function FilterHoursByDates(times: seq<string>, dates: seq<string>): (idx: seq<nat>)
    ensures forall k :: 0 <= k < |idx| ==> idx[k] < |times| && DatePart(times[idx[k]]) in dates
    ensures forall i :: 0 <= i < |times| && DatePart(times[i]) in dates ==> i in idx
    ensures forall k, l :: 0 <= k < l < |idx| ==> idx[k] < idx[l]
  {
    if |times| == 0 then []
    else
      var front := FilterHoursByDates(times[..|times| - 1], dates);
      if DatePart(times[|times| - 1]) in dates then front + [|times| - 1] else front
  }
}

=== FILE: distance.dfy ===
/**
 * The drive-time estimate of server/utils/distance.ts: great-circle
 * kilometres at an assumed 65 km/h, rounded, with a 10-minute floor.
 */
module Distance {
  import opened Series

  const AvgKmh: real := 65.0
  const MinMinutes: int := 10

  /** `driveMinutesApprox(km)` */
  function DriveMinutesApprox(km: real): (mins: int)
    ensures mins >= MinMinutes
    ensures mins == MinMinutes || mins as real - 0.5 <= km / AvgKmh * 60.0 < mins as real + 0.5
  {
    var exact := km / AvgKmh * 60.0;
    var rounded := Round(exact);
    if rounded > MinMinutes then rounded else MinMinutes
  }

  /** A longer distance never gives a shorter estimate. */
  lemma DriveMinutesMonotone(km1: real, km2: real)
    requires km1 <= km2
    ensures DriveMinutesApprox(km1) <= DriveMinutesApprox(km2)
  {
    RoundMonotone(km1 / AvgKmh * 60.0, km2 / AvgKmh * 60.0);
  }

  /**
   * Below 9.5 minutes of driving at 65 km/h the floor decides; from there on
   * the estimate is the rounded drive time.
   */
  lemma DriveMinutesThreshold(km: real)
    ensures km < 9.5 * AvgKmh / 60.0 ==> DriveMinutesApprox(km) == MinMinutes
    ensures km >= 9.5 * AvgKmh / 60.0 ==> DriveMinutesApprox(km) == Round(km / AvgKmh * 60.0)
  {
    var exact := km / AvgKmh * 60.0;
    assert km < 9.5 * AvgKmh / 60.0 <==> exact < 9.5;
    if exact >= 9.5 {
      RoundMonotone(9.5, exact);
      assert Round(9.5) == 10;
    } else {
      RoundMonotone(exact, 9.5);
    }
  }
}

=== FILE: forecast.dfy ===
/**
 * The forecast cache decision and series projection of
 * server/utils/forecast.ts. The key-value store read, the upstream HTTP
 * outcome and the clock readings are inputs; the store write is an output.
 */
module Forecast {
  import opened Wrappers
  import opened Series
  import opened Text
  import opened Dates

  /** A forecast and the time it was built (`updatedAt`, as epoch ms). */
  datatype ForecastResult = ForecastResult(mini: MiniSeries, updatedAt: int, error: bool)

  /**
   * `forecast:<lat>,<lon>:<dates>`. Coordinates are kept as whole
   * hundredths, rounded half up; this agrees with `toFixed(2)` except on
   * negative ties, which `toFixed` rounds away from zero.
   */
  datatype CacheKey = CacheKey(latHundredths: int, lonHundredths: int, datesKey: string)

  /** Three hours, in milliseconds and in seconds. */
  const FreshMs := 10_800_000
  const TtlSeconds := 60 * 60 * 3

  /** What `kv.get(key)` gave: nothing (or ""), text that is not a cache entry, or an entry. */
  datatype Cached = Missing | Unparseable | Entry(result: ForecastResult, fetchedAt: int)

  /** One hourly column of the upstream JSON: absent, or values that may be null. */
  type Column = Option<seq<Option<real>>>

  datatype Hourly = Hourly(
    time: Option<seq<string>>,
    precipitation: Column,
    precipitationProbability: Column,
    windspeed: Column,
    windgusts: Column,
    temperature: Column,
    cloudcover: Column)

  /** The upstream call: it threw, or it answered with a status and a body. */
  datatype Upstream =
    | Threw
    | Answered(status: int, body: Body)

  /** The body: not JSON, or JSON with or without an `hourly` object. */
  datatype Body = NotJson | Json(hourly: Option<Hourly>)

  /** The three clock readings: the cache check, the result, the store write. */
  datatype Clock = Clock(checkAt: int, resultAt: int, storeAt: int)

  datatype CacheWrite = CacheWrite(key: CacheKey, result: ForecastResult, fetchedAt: int, ttlSeconds: int)

  /** The forecast returned, what was written to the store, and whether upstream was called. */
  datatype Outcome = Outcome(result: ForecastResult, write: Option<CacheWrite>, fetched: bool)

  /** `cacheKey(lat, lon, dates.join(','))` */
  function KeyOf(lat: real, lon: real, dates: seq<string>): (k: CacheKey)
    ensures k.datesKey == Join(dates, ',')
  {
    CacheKey(Round(lat * 100.0), Round(lon * 100.0), Join(dates, ','))
  }

  /**
   * Two requests share a cache entry exactly when their coordinates agree
   * to two decimals and their date lists are equal, in order (for
   * non-empty lists of comma-free dates).
   */
  lemma KeyOfShared(lat1: real, lon1: real, d1: seq<string>, lat2: real, lon2: real, d2: seq<string>)
    requires |d1| >= 1 && |d2| >= 1
    requires forall k :: 0 <= k < |d1| ==> ',' !in d1[k]
    requires forall k :: 0 <= k < |d2| ==> ',' !in d2[k]
    ensures KeyOf(lat1, lon1, d1) == KeyOf(lat2, lon2, d2) <==>
      Round(lat1 * 100.0) == Round(lat2 * 100.0) && Round(lon1 * 100.0) == Round(lon2 * 100.0) && d1 == d2
  {
    if Join(d1, ',') == Join(d2, ',') {
      JoinInjective(d1, d2, ',');
    }
  }

  /** `(now - fetchedAt) / 36e5 <= 3` */
  predicate Fresh(fetchedAt: int, now: int) {
    (now - fetchedAt) as real / 3_600_000.0 <= 3.0
  }

  /** An entry exactly three hours old is still fresh; one millisecond more is not. */
  lemma FreshWithinThreeHours(fetchedAt: int, now: int)
    ensures Fresh(fetchedAt, now) <==> now - fetchedAt <= FreshMs
  {
  }

  /** `res.ok`: a 2xx status. */
  predicate Ok(status: int) { 200 <= status <= 299 }

  /** The parsed data, when the upstream call succeeded. */
  function Succeeded(u: Upstream): (d: Option<Option<Hourly>>)
    ensures d.Some? <==> u.Answered? && Ok(u.status) && u.body.Json?
  {
    match u
    case Threw => None
    case Answered(status, body) =>
      if !Ok(status) then None
      else match body
        case NotJson => None
        case Json(hourly) => Some(hourly)
  }

  /** `data?.hourly?.time || []` */
  function Times(hourly: Option<Hourly>): seq<string> {
    if hourly.Some? && hourly.value.time.Some? then hourly.value.time.value else []
  }

  /** `column?.[i] ?? 0` */
  function ValueAt(col: Column, i: nat): (v: real)
    ensures col.None? || i >= |col.value| || col.value[i].None? ==> v == 0.0
    ensures col.Some? && i < |col.value| && col.value[i].Some? ==> v == col.value[i].value
  {
    if col.Some? && i < |col.value| && col.value[i].Some? then col.value[i].value else 0.0
  }

  /** `pickIdx.map(i => column?.[i] ?? 0)` */
  function Pick(col: Column, idx: seq<nat>): (r: seq<real>)
    ensures |r| == |idx|
    ensures forall k :: 0 <= k < |idx| ==> r[k] == ValueAt(col, idx[k])
  {
    seq(|idx|, k requires 0 <= k < |idx| => ValueAt(col, idx[k]))
  }

  /** The mini series built from the hours whose date is requested. */
  function Project(hourly: Option<Hourly>, dates: seq<string>): (m: MiniSeries)
    ensures WellFormed(m)
  {
    var times := Times(hourly);
    var idx := FilterHoursByDates(times, dates);
    var h := if hourly.Some? then hourly.value else Hourly(None, None, None, None, None, None, None);
    MiniSeries(
      seq(|idx|, k requires 0 <= k < |idx| => times[idx[k]]),
      Pick(h.precipitation, idx),
      Pick(h.precipitationProbability, idx),
      Pick(h.windspeed, idx),
      Pick(h.windgusts, idx),
      Pick(h.temperature, idx),
      Pick(h.cloudcover, idx))
  }

  /**
   * `getForecast`: serve a fresh cache entry, otherwise fetch; a failed
   * fetch gives an empty series flagged as an error and writes nothing, a
   * successful one is written back when a store exists. `store` is `None`
   * when no store is bound.
   */
  function GetForecast(store: Option<Cached>, lat: real, lon: real, dates: seq<string>,
                       upstream: Upstream, clock: Clock): (o: Outcome)
    ensures o.fetched <==> !(store.Some? && store.value.Entry? && Fresh(store.value.fetchedAt, clock.checkAt))
    ensures !o.fetched ==> o.result == store.value.result && o.write.None?
    ensures o.fetched && Succeeded(upstream).None? ==>
      o.result == ForecastResult(Empty, clock.resultAt, true) && o.write.None?
    ensures o.fetched && Succeeded(upstream).Some? ==>
      && o.result == ForecastResult(Project(Succeeded(upstream).value, dates), clock.resultAt, false)
      && (o.write.Some? <==> store.Some?)
    ensures o.write.Some? ==>
      o.write.value == CacheWrite(KeyOf(lat, lon, dates), o.result, clock.storeAt, TtlSeconds)
  {
    if store.Some? && store.value.Entry? && Fresh(store.value.fetchedAt, clock.checkAt) then
      Outcome(store.value.result, None, false)
    else
      match Succeeded(upstream)
      case None => Outcome(ForecastResult(Empty, clock.resultAt, true), None, true)
      case Some(hourly) =>
        var result := ForecastResult(Project(hourly, dates), clock.resultAt, false);
        var write := if store.Some? then Some(CacheWrite(KeyOf(lat, lon, dates), result, clock.storeAt, TtlSeconds)) else None;
        Outcome(result, write, true)
  }

  /**
   * The projected hours are exactly the upstream hours whose date is
   * requested, in upstream order, and each column entry belongs to the
   * same upstream hour, a missing value reading as 0.
   */
  lemma ProjectSelectsRequestedHours(hourly: Option<Hourly>, dates: seq<string>)
    ensures var m, times, idx := Project(hourly, dates), Times(hourly), FilterHoursByDates(Times(hourly), dates);
      && |m.hours| == |idx|
      && (forall k :: 0 <= k < |idx| ==> m.hours[k] == times[idx[k]] && DatePart(m.hours[k]) in dates)
      && (forall i :: 0 <= i < |times| && DatePart(times[i]) in dates ==> times[i] in m.hours)
      && (forall k, l :: 0 <= k < l < |idx| ==> idx[k] < idx[l])
      && (hourly.Some? ==> forall k :: 0 <= k < |idx| ==>
            m.rainMm[k] == ValueAt(hourly.value.precipitation, idx[k])
            && m.pop[k] == ValueAt(hourly.value.precipitationProbability, idx[k])
            && m.wind[k] == ValueAt(hourly.value.windspeed, idx[k])
            && m.gust[k] == ValueAt(hourly.value.windgusts, idx[k])
            && m.temp[k] == ValueAt(hourly.value.temperature, idx[k])
            && m.cloud[k] == ValueAt(hourly.value.cloudcover, idx[k]))
  {
    var m, times, idx := Project(hourly, dates), Times(hourly), FilterHoursByDates(Times(hourly), dates);
    forall i | 0 <= i < |times| && DatePart(times[i]) in dates
      ensures times[i] in m.hours
    {
      var k :| 0 <= k < |idx| && idx[k] == i;
      assert m.hours[k] == times[i];
    }
  }

  /** Without an `hourly.time` array the forecast has no hours. */
  lemma NoTimesNoHours(hourly: Option<Hourly>, dates: seq<string>)
    requires hourly.None? || hourly.value.time.None?
    ensures Project(hourly, dates).hours == []
  {
  }

  /** A served result is never stale: a cache hit is at most three hours old. */
  lemma HitIsFresh(store: Option<Cached>, lat: real, lon: real, dates: seq<string>, upstream: Upstream, clock: Clock)
    ensures var o := GetForecast(store, lat, lon, dates, upstream, clock);
      !o.fetched ==> store.Some? && store.value.Entry? && clock.checkAt - store.value.fetchedAt <= FreshMs
  {
    if store.Some? && store.value.Entry? {
      FreshWithinThreeHours(store.value.fetchedAt, clock.checkAt);
    }
  }

  /** Whatever path is taken, the arrays of the returned series line up. */
  lemma ResultWellFormed(store: Option<Cached>, lat: real, lon: real, dates: seq<string>, upstream: Upstream, clock: Clock)
    requires store.Some? && store.value.Entry? ==> WellFormed(store.value.result.mini)
    ensures WellFormed(GetForecast(store, lat, lon, dates, upstream, clock).result.mini)
  {
  }

  /** An error result is never written to the store. */
  lemma ErrorsAreNotCached(store: Option<Cached>, lat: real, lon: real, dates: seq<string>, upstream: Upstream, clock: Clock)
    ensures var o := GetForecast(store, lat, lon, dates, upstream, clock);
      o.write.Some? ==> !o.write.value.result.error && o.fetched
  {
  }

  /**
   * Writing the result then reading it back within three hours serves the
   * written forecast without another upstream call.
   */
  lemma WriteThenHit(store: Option<Cached>, lat: real, lon: real, dates: seq<string>,
                     upstream: Upstream, clock: Clock, upstream2: Upstream, clock2: Clock)
    requires var o := GetForecast(store, lat, lon, dates, upstream, clock); o.write.Some?
    requires clock2.checkAt - clock.storeAt <= FreshMs
    ensures var w := GetForecast(store, lat, lon, dates, upstream, clock).write.value;
      var o2 := GetForecast(Some(Entry(w.result, w.fetchedAt)), lat, lon, dates, upstream2, clock2);
      !o2.fetched && o2.result == w.result
  {
    FreshWithinThreeHours(clock.storeAt, clock2.checkAt);
  }
}

=== FILE: icons.dfy ===
/**
 * The daily condition classifier of server/utils/icons.ts (and its identical
 * copy in the rank endpoint): for each requested date, the hours whose
 * timestamp starts with that date are aggregated and mapped to one icon by a
 * first-match-wins priority chain.
 */
module Icons {
  import opened Series
  import opened Text

  datatype Icon = Thunder | Snow | Sleet | HeavyRain | Rain | Sun | LightCloud | DarkCloud | Cloud

  /** The icons that depict precipitation. */
  predicate Wet(i: Icon) {
    i in {Thunder, Snow, Sleet, HeavyRain, Rain}
  }

  /** One day's aggregates over its selected hours. */
  datatype DayStats = DayStats(
    rainSum: real, popMax: real, gustMax: real,
    cloudAvg: real, tempAvg: real, windAvg: real)

  datatype DailyIcon = DailyIcon(date: string, icon: Icon, tempAvgC: real, windAvgMph: real, rainSumMm: real)

  predicate PrecipLikely(a: DayStats) { a.popMax >= 40.0 || a.rainSum >= 1.0 }
  predicate VeryWet(a: DayStats) { a.rainSum >= 6.0 || (a.popMax >= 80.0 && a.rainSum >= 2.0) }
  predicate ThunderRisk(a: DayStats) { a.popMax >= 70.0 && a.rainSum >= 4.0 && a.gustMax >= 35.0 }

  /** The priority chain, in the source's order. */
  function Classify(a: DayStats): (icon: Icon)
    ensures ThunderRisk(a) ==> icon == Thunder
    ensures Wet(icon) <==> PrecipLikely(a)
    ensures !PrecipLikely(a) ==>
      icon == (if a.cloudAvg < 20.0 then Sun
               else if a.cloudAvg < 60.0 then LightCloud
               else if a.cloudAvg < 85.0 then Cloud
               else DarkCloud)
    ensures PrecipLikely(a) && !ThunderRisk(a) && a.tempAvg <= 1.5 ==> icon == Snow
    ensures PrecipLikely(a) && !ThunderRisk(a) && 1.5 < a.tempAvg <= 3.0 ==> icon == Sleet
  {
    var precipLikely := PrecipLikely(a);
    if ThunderRisk(a) then Thunder
    else if a.tempAvg <= 1.5 && precipLikely then Snow
    else if a.tempAvg > 1.5 && a.tempAvg <= 3.0 && precipLikely then Sleet
    else if VeryWet(a) then HeavyRain
    else if precipLikely then Rain
    else if a.cloudAvg < 20.0 then Sun
    else if a.cloudAvg < 60.0 then LightCloud
    else if a.cloudAvg >= 85.0 && !precipLikely then DarkCloud
    else Cloud
  }

  /**
   * An order-free description of the chain: each icon's own condition, with
   * no reference to the branches before it.
   */
  predicate Describes(a: DayStats, icon: Icon) {
    match icon
    case Thunder => ThunderRisk(a)
    case Snow => !ThunderRisk(a) && PrecipLikely(a) && a.tempAvg <= 1.5
    case Sleet => !ThunderRisk(a) && PrecipLikely(a) && 1.5 < a.tempAvg <= 3.0
    case HeavyRain => !ThunderRisk(a) && a.tempAvg > 3.0 && VeryWet(a)
    case Rain => !ThunderRisk(a) && a.tempAvg > 3.0 && PrecipLikely(a) && !VeryWet(a)
    case Sun => !PrecipLikely(a) && a.cloudAvg < 20.0
    case LightCloud => !PrecipLikely(a) && 20.0 <= a.cloudAvg < 60.0
    case Cloud => !PrecipLikely(a) && 60.0 <= a.cloudAvg < 85.0
    case DarkCloud => !PrecipLikely(a) && a.cloudAvg >= 85.0
  }

  /** Exactly one icon's condition holds, and it is the one the chain picks. */
  lemma ClassifyExactlyOne(a: DayStats, icon: Icon)
    ensures Describes(a, icon) <==> icon == Classify(a)
  {
  }

  /** Math.round(x * 10) / 10 over exact reals: round half up to one decimal. */
  function Round1(x: real): (r: real)
    ensures r - 0.05 <= x < r + 0.05
    ensures (r * 10.0).Floor as real == r * 10.0
  {
    Round(x * 10.0) as real / 10.0
  }

  /** Indices of the hours whose timestamp starts with `d`, ascending. */
  function HoursOf(hours: seq<string>, d: string): (idx: seq<nat>)
    ensures forall k :: 0 <= k < |idx| ==> idx[k] < |hours| && StartsWith(hours[idx[k]], d)
    ensures forall i :: 0 <= i < |hours| && StartsWith(hours[i], d) ==> i in idx
    ensures forall k, l :: 0 <= k < l < |idx| ==> idx[k] < idx[l]
  {
    if |hours| == 0 then []
    else
      var front := HoursOf(hours[..|hours| - 1], d);
      if StartsWith(hours[|hours| - 1], d) then front + [|hours| - 1] else front
  }

  /** `idx.map(i => a[i] || 0)` */
  function Pick(a: seq<real>, idx: seq<nat>): (r: seq<real>)
    ensures |r| == |idx|
    ensures forall k :: 0 <= k < |idx| ==> r[k] == At(a, idx[k])
  {
    seq(|idx|, k requires 0 <= k < |idx| => At(a, idx[k]))
  }

  function StatsOf(m: MiniSeries, idx: seq<nat>): DayStats {
    DayStats(
      Sum(Pick(m.rainMm, idx)), Max(Pick(m.pop, idx)), Max(Pick(m.gust, idx)),
      Avg(Pick(m.cloud, idx)), Avg(Pick(m.temp, idx)), Avg(Pick(m.wind, idx)))
  }

  /** The entry for one date. */
  function DayIcon(m: MiniSeries, d: string): (e: DailyIcon)
    ensures e.date == d
    ensures HoursOf(m.hours, d) == [] ==> e == DailyIcon(d, Cloud, 0.0, 0.0, 0.0)
  {
    var idx := HoursOf(m.hours, d);
    if |idx| == 0 then DailyIcon(d, Cloud, 0.0, 0.0, 0.0)
    else
      var a := StatsOf(m, idx);
      DailyIcon(d, Classify(a), Round1(a.tempAvg), Round1(a.windAvg), Round1(a.rainSum))
  }

  /** `dailyIcons(mini, dates)` */
  function DailyIcons(m: MiniSeries, dates: seq<string>): (r: seq<DailyIcon>)
    ensures |r| == |dates|
    ensures forall k :: 0 <= k < |dates| ==> r[k] == DayIcon(m, dates[k])
  {
    seq(|dates|, k requires 0 <= k < |dates| => DayIcon(m, dates[k]))
  }

  /** One entry per requested date, in order, each carrying its own date. */
  lemma DailyIconsDates(m: MiniSeries, dates: seq<string>)
    ensures |DailyIcons(m, dates)| == |dates|
    ensures forall k :: 0 <= k < |dates| ==> DailyIcons(m, dates)[k].date == dates[k]
  {
  }

  /** A date with no matching hour reports a cloud icon and zero aggregates. */
  lemma NoHoursIsCloud(m: MiniSeries, d: string)
    requires forall i :: 0 <= i < |m.hours| ==> !StartsWith(m.hours[i], d)
    ensures DayIcon(m, d) == DailyIcon(d, Cloud, 0.0, 0.0, 0.0)
  {
  }

  /**
   * A date whose hours meet the thunder thresholds is reported as thunder,
   * whatever its temperature or cloud.
   */
  lemma ThunderWins(m: MiniSeries, d: string)
    requires HoursOf(m.hours, d) != []
    requires ThunderRisk(StatsOf(m, HoursOf(m.hours, d)))
    ensures DayIcon(m, d).icon == Thunder
  {
  }
}

=== FILE: rank.dfy ===
/**
 * The handler of server/api/rank.get.ts: resolve the requested dates, then
 * for every catalog region estimate the drive, skip the ones beyond the
 * limit, fetch with retries, drop the ones that failed, score and classify
 * the rest, and sort by descending score.
 */
module Rank {
  import opened Wrappers
  import opened Text
  import opened Calendar
  import opened Series
  import opened Dates
  import Icons
  import opened Score
  import opened Distance
  import opened Forecast
  import opened Retry
  import opened Sorting

  /**
   * A catalog region with what the handler needs about it: its rock types,
   * the great-circle distance from home to its first point (an input), and
   * the outcome of each `getForecast` attempt for it.
   */
  datatype RegionInput = RegionInput(id: string, name: string, rocks: seq<string>, km: real, outcome: nat -> Attempt)

  /** One entry of the response. */
  datatype Ranked = Ranked(
    id: string, name: string, score: int, why: seq<Reason>,
    daily: seq<Icons.DailyIcon>, distanceMins: int, updatedAt: int,
    avgTempC: real, avgWindMph: real, avgRainMm: real)

  const RankAttempts := 3

  /** `filter(Boolean)` on strings: the non-empty ones, in order. */
  function NonEmpty(parts: seq<string>): (r: seq<string>)
    ensures forall k :: 0 <= k < |r| ==> r[k] != "" && r[k] in parts
    ensures forall k :: 0 <= k < |parts| && parts[k] != "" ==> parts[k] in r
  {
    if |parts| == 0 then []
    else if parts[0] == "" then NonEmpty(parts[1..])
    else [parts[0]] + NonEmpty(parts[1..])
  }

  /** Filtering works piecewise, so it keeps order and duplicates. */
  lemma {:induction false} NonEmptyAppend(a: seq<string>, b: seq<string>)
    ensures NonEmpty(a + b) == NonEmpty(a) + NonEmpty(b)
  {
    if |a| == 0 {
      assert a + b == b;
    } else {
      assert (a + b)[0] == a[0] && (a + b)[1..] == a[1..] + b;
      NonEmptyAppend(a[1..], b);
    }
  }

  /** A single string is kept exactly when it is not empty. */
  lemma NonEmptySingle(s: string)
    ensures NonEmpty([s]) == if s == "" then [] else [s]
  {
    assert [s][1..] == [];
  }

  function TrimAll(parts: seq<string>): (r: seq<string>)
    ensures |r| == |parts| && forall k :: 0 <= k < |parts| ==> r[k] == Trim(parts[k])
  {
    seq(|parts|, k requires 0 <= k < |parts| => Trim(parts[k]))
  }

  /** `param.split(',').map(s => s.trim()).filter(Boolean)` */
  function Parts(param: string): (parts: seq<string>)
    ensures forall k :: 0 <= k < |parts| ==> parts[k] != "" && ',' !in parts[k]
  {
    PartsHaveNoComma(param);
    NonEmpty(TrimAll(Split(param, ',')))
  }

  lemma PartsHaveNoComma(param: string)
    ensures var parts := NonEmpty(TrimAll(Split(param, ',')));
      forall k :: 0 <= k < |parts| ==> ',' !in parts[k]
  {
    var split := Split(param, ',');
    var trimmed := TrimAll(split);
    var parts := NonEmpty(trimmed);
    forall k | 0 <= k < |parts|
      ensures ',' !in parts[k]
    {
      var i :| 0 <= i < |trimmed| && trimmed[i] == parts[k];
      TrimInside(split[i]);
    }
  }

  lemma TrimInside(s: string)
    requires ',' !in s
    ensures ',' !in Trim(s)
  {
    TrimSubsequence(s);
  }

  /** `formatDate(parseDate(d))` on each date: the canonical `YYYY-MM-DD` form. */
  function Normalise(dates: seq<string>): (r: seq<string>)
    ensures |r| == |dates| && forall k :: 0 <= k < |dates| ==> r[k] == FormatDate(ParseDate(dates[k]))
  {
    seq(|dates|, k requires 0 <= k < |dates| => FormatDate(ParseDate(dates[k])))
  }

  /**
   * The dates the handler works on: with an empty parameter the
   * 'next-weekend' preset, which normalising leaves as it is; otherwise one
   * canonical date per comma-separated, trimmed, non-empty part, in order.
   */
  function ResolveDates(param: string, today: Civil): (dates: seq<string>)
    requires Valid(today)
    ensures param == "" ==> |dates| == 2
    ensures param == "" && today.year >= 100 ==> dates == PresetDates(NextWeekend, today)
    ensures param != "" ==> |dates| == |Parts(param)|
    ensures param != "" ==> forall k :: 0 <= k < |dates| ==> dates[k] == FormatDate(ParseDate(Parts(param)[k]))
  {
    if param == "" then
      NextWeekendIsCanonical(today);
      Normalise(PresetDates(NextWeekend, today))
    else Normalise(Parts(param))
  }

  /** Normalising changes nothing on the next-weekend dates from the year 100 on. */
  lemma NextWeekendIsCanonical(today: Civil)
    requires Valid(today)
    ensures today.year >= 100 ==> Normalise(PresetDates(NextWeekend, today)) == PresetDates(NextWeekend, today)
  {
    if today.year >= 100 {
      var r := PresetDates(NextWeekend, today);
      var days := PresetDays(NextWeekend, today);
      PresetDatesAreDays(NextWeekend, today);
      PresetDaysNotEarlier(NextWeekend, today);
      CanonicalIsFixed(r, days);
    }
  }

  /** Normalising formatted dates from the year 100 on gives them back. */
  lemma CanonicalIsFixed(r: seq<string>, days: seq<Civil>)
    requires |r| == |days|
    requires forall k :: 0 <= k < |days| ==> Valid(days[k]) && days[k].year >= 100 && r[k] == FormatDate(Some(days[k]))
    ensures Normalise(r) == r
  {
    forall k | 0 <= k < |r|
      ensures Normalise(r)[k] == r[k]
    {
      FormatParseRoundTrip(days[k]);
    }
  }

  /** `distanceMins`: the drive estimate with a home location, else 0. */
  function DistanceMins(r: RegionInput, hasHome: bool): (mins: int)
    ensures !hasHome ==> mins == 0
    ensures hasHome ==> mins >= MinMinutes
  {
    if hasHome then DriveMinutesApprox(r.km) else 0
  }

  /** The hard distance filter applies only with a home and a finite limit. */
  predicate Skipped(r: RegionInput, hasHome: bool, limit: Limit) {
    hasHome && limit.Finite? && DistanceMins(r, hasHome) as real > limit.mins
  }

  /** `getForecast` calls made for a region: none when skipped, else until the first usable one. */
  function Calls(r: RegionInput, hasHome: bool, limit: Limit): nat {
    if Skipped(r, hasHome, limit) then 0
    else match FirstUsable(r.outcome, 0, RankAttempts)
      case Some(j) => j + 1
      case None => RankAttempts
  }

  /** The response entry of one region, or `None` when skipped or failed. */
  function Evaluate(r: RegionInput, hasHome: bool, limit: Limit, dates: seq<string>): (e: Option<Ranked>)
    ensures e.Some? <==> !Skipped(r, hasHome, limit) && FirstUsable(r.outcome, 0, RankAttempts).Some?
    ensures e.Some? ==> e.value.id == r.id && 0 <= e.value.score <= 100 && |e.value.daily| == |dates|
    ensures e.Some? ==> e.value.distanceMins == DistanceMins(r, hasHome)
  {
    if Skipped(r, hasHome, limit) then None
    else match FirstUsable(r.outcome, 0, RankAttempts)
      case None => None
      case Some(j) =>
        var out := r.outcome(j).result;
        var dist := DistanceMins(r, hasHome);
        var s := ScoreRegion(out.mini, ScoreOptions(r.rocks, None, AnyType, dist as real, limit));
        Some(Ranked(r.id, r.name, s.score, s.why, Icons.DailyIcons(out.mini, dates), dist, out.updatedAt,
          Icons.Round1(Avg(out.mini.temp)), Icons.Round1(Avg(out.mini.wind)), Icons.Round1(Avg(out.mini.rainMm))))
  }

  /** The loop over the catalog, before sorting: the regions kept, in catalog order. */
  function Collect(regions: seq<RegionInput>, hasHome: bool, limit: Limit, dates: seq<string>): (out: seq<Ranked>)
    ensures |out| <= |regions|
  {
    if |regions| == 0 then []
    else
      var rest := Collect(regions[1..], hasHome, limit, dates);
      match Evaluate(regions[0], hasHome, limit, dates)
      case None => rest
      case Some(e) => [e] + rest
  }

  /** The loop works region by region: collecting a concatenation concatenates. */
  lemma {:induction false} CollectAppend(a: seq<RegionInput>, b: seq<RegionInput>, hasHome: bool, limit: Limit, dates: seq<string>)
    ensures Collect(a + b, hasHome, limit, dates) == Collect(a, hasHome, limit, dates) + Collect(b, hasHome, limit, dates)
  {
    if |a| == 0 {
      assert a + b == b;
    } else {
      assert (a + b)[0] == a[0] && (a + b)[1..] == a[1..] + b;
      CollectAppend(a[1..], b, hasHome, limit, dates);
    }
  }

  /** One region contributes its entry, or nothing when skipped or failed. */
  lemma CollectSingle(r: RegionInput, hasHome: bool, limit: Limit, dates: seq<string>)
    ensures var e := Evaluate(r, hasHome, limit, dates);
      Collect([r], hasHome, limit, dates) == if e.Some? then [e.value] else []
  {
    assert [r][1..] == [];
  }

  function ScoreOf(e: Ranked): int { e.score }

  /** The handler's response for resolved dates. */
  function RankRegions(regions: seq<RegionInput>, hasHome: bool, limit: Limit, dates: seq<string>): (out: seq<Ranked>)
    ensures SortedDesc(out, ScoreOf)
    ensures multiset(out) == multiset(Collect(regions, hasHome, limit, dates))
    ensures forall v :: WithKey(out, ScoreOf, v) == WithKey(Collect(regions, hasHome, limit, dates), ScoreOf, v)
  {
    var kept := Collect(regions, hasHome, limit, dates);
    SortDescCorrect(kept, ScoreOf);
    SortDesc(kept, ScoreOf)
  }

  /**
   * A region appears in the collected list exactly when it is not skipped
   * and one of its three attempts gives a usable forecast; failed regions
   * leave no placeholder behind.
   */
  lemma CollectMembership(regions: seq<RegionInput>, hasHome: bool, limit: Limit, dates: seq<string>, k: nat)
    requires k < |regions|
    ensures Evaluate(regions[k], hasHome, limit, dates).Some? ==>
      Evaluate(regions[k], hasHome, limit, dates).value in Collect(regions, hasHome, limit, dates)
    ensures forall e :: e in Collect(regions, hasHome, limit, dates) ==>
      exists i :: 0 <= i < |regions| && Evaluate(regions[i], hasHome, limit, dates) == Some(e)
  {
    if Evaluate(regions[k], hasHome, limit, dates).Some? {
      CollectHas(regions, hasHome, limit, dates, k);
    }
    CollectFrom(regions, hasHome, limit, dates);
  }

  lemma {:induction false} CollectHas(regions: seq<RegionInput>, hasHome: bool, limit: Limit, dates: seq<string>, k: nat)
    requires k < |regions| && Evaluate(regions[k], hasHome, limit, dates).Some?
    ensures Evaluate(regions[k], hasHome, limit, dates).value in Collect(regions, hasHome, limit, dates)
  {
    var e := Evaluate(regions[k], hasHome, limit, dates).value;
    var rest := Collect(regions[1..], hasHome, limit, dates);
    CollectStep(regions, hasHome, limit, dates);
    if k == 0 {
      assert Collect(regions, hasHome, limit, dates) == [e] + rest;
    } else {
      assert regions[1..][k - 1] == regions[k];
      CollectHas(regions[1..], hasHome, limit, dates, k - 1);
      assert e in rest;
      InSuffix(e, Collect(regions, hasHome, limit, dates), rest);
    }
  }

  lemma InSuffix<T>(x: T, s: seq<T>, rest: seq<T>)
    requires x in rest && |rest| <= |s| && s[|s| - |rest|..] == rest
    ensures x in s
  {
    var i :| 0 <= i < |rest| && rest[i] == x;
    assert s[|s| - |rest| + i] == x;
  }

  /** One step of the loop: the first region's entry, if any, then the rest. */
  lemma CollectStep(regions: seq<RegionInput>, hasHome: bool, limit: Limit, dates: seq<string>)
    requires |regions| > 0
    ensures var e := Evaluate(regions[0], hasHome, limit, dates);
      Collect(regions, hasHome, limit, dates)
        == (if e.Some? then [e.value] else []) + Collect(regions[1..], hasHome, limit, dates)
  {
    if Evaluate(regions[0], hasHome, limit, dates).None? {
      assert [] + Collect(regions[1..], hasHome, limit, dates) == Collect(regions[1..], hasHome, limit, dates);
    }
  }

  lemma {:induction false} CollectFrom(regions: seq<RegionInput>, hasHome: bool, limit: Limit, dates: seq<string>)
    ensures forall e :: e in Collect(regions, hasHome, limit, dates) ==>
      exists i :: 0 <= i < |regions| && Evaluate(regions[i], hasHome, limit, dates) == Some(e)
  {
    if |regions| > 0 {
      CollectFrom(regions[1..], hasHome, limit, dates);
      forall e | e in Collect(regions, hasHome, limit, dates)
        ensures exists i :: 0 <= i < |regions| && Evaluate(regions[i], hasHome, limit, dates) == Some(e)
      {
        if Evaluate(regions[0], hasHome, limit, dates) == Some(e) {
        } else {
          assert e in Collect(regions[1..], hasHome, limit, dates);
          var i :| 0 <= i < |regions[1..]| && Evaluate(regions[1..][i], hasHome, limit, dates) == Some(e);
          assert regions[i + 1] == regions[1..][i];
        }
      }
    }
  }

  /** Regions beyond the limit cost no `getForecast` call and never appear. */
  lemma SkippedCostsNothing(r: RegionInput, hasHome: bool, limit: Limit, dates: seq<string>)
    ensures Skipped(r, hasHome, limit) <==> hasHome && limit.Finite? && DriveMinutesApprox(r.km) as real > limit.mins
    ensures Skipped(r, hasHome, limit) ==> Calls(r, hasHome, limit) == 0 && Evaluate(r, hasHome, limit, dates).None?
    ensures !Skipped(r, hasHome, limit) ==> 1 <= Calls(r, hasHome, limit) <= RankAttempts
  {
  }

  /** Without a home location nothing is skipped and every distance is 0. */
  lemma NoHomeNoFilter(r: RegionInput, limit: Limit, dates: seq<string>)
    ensures !Skipped(r, false, limit) && DistanceMins(r, false) == 0
  {
  }

  /**
   * Each entry's score and reasons are the scorer's on the first usable
   * forecast, and its daily icons are the classifier's on that forecast,
   * one per date.
   */
  lemma EntryFromForecast(r: RegionInput, hasHome: bool, limit: Limit, dates: seq<string>)
    requires Evaluate(r, hasHome, limit, dates).Some?
    ensures var e := Evaluate(r, hasHome, limit, dates).value;
      var out := r.outcome(FirstUsable(r.outcome, 0, RankAttempts).value).result;
      && |out.mini.hours| > 0
      && Scored(e.score, e.why) == ScoreRegion(out.mini, ScoreOptions(r.rocks, None, AnyType, e.distanceMins as real, limit))
      && (forall k :: 0 <= k < |dates| ==> e.daily[k] == Icons.DayIcon(out.mini, dates[k]) && e.daily[k].date == dates[k])
      && e.updatedAt == out.updatedAt
      && e.avgTempC == Icons.Round1(Avg(out.mini.temp)) && e.avgWindMph == Icons.Round1(Avg(out.mini.wind))
      && e.avgRainMm == Icons.Round1(Avg(out.mini.rainMm))
  {
  }
}

=== FILE: region.dfy ===
/**
 * The handler of server/api/region.get.ts: validate the id, resolve the
 * dates (default: tomorrow), fetch with four attempts or fail with 503,
 * then score the region and classify each day with this endpoint's own
 * thresholds.
 */
module Region {
  import opened Wrappers
  import opened Text
  import opened Calendar
  import opened Series
  import opened Dates
  import Icons
  import opened Score
  import opened Distance
  import opened Forecast
  import opened Retry
  import Rank

  /** This endpoint's daily entries carry only a date and an icon. */
  datatype RegionDay = RegionDay(date: string, icon: Icons.Icon)

  /** The response body. */
  datatype RegionReport = RegionReport(
    id: string, name: string, score: int, why: seq<Reason>, daily: seq<RegionDay>,
    distanceMins: int, updatedAt: int, avgTempC: real, avgWindMph: real, avgRainMm: real)

  const BadRequest := 400
  const NotFound := 404
  const RegionAttempts := 4

  /** This endpoint's thresholds for thunder and heavy rain. */
  predicate ThunderRisk(a: Icons.DayStats) { a.popMax >= 70.0 && a.rainSum >= 2.0 && a.gustMax >= 40.0 }
  predicate HeavyRain(a: Icons.DayStats) { a.popMax >= 70.0 || a.rainSum >= 4.0 }

  /** The variant priority chain. */
  function Classify(a: Icons.DayStats): (icon: Icons.Icon)
    ensures ThunderRisk(a) <==> icon == Icons.Thunder
    ensures Icons.Wet(icon) <==> Icons.PrecipLikely(a)
    ensures Icons.PrecipLikely(a) && !ThunderRisk(a) && a.tempAvg <= 1.5 ==> icon == Icons.Snow
    ensures Icons.PrecipLikely(a) && !ThunderRisk(a) && 1.5 < a.tempAvg <= 3.0 ==> icon == Icons.Sleet
    ensures Icons.PrecipLikely(a) && !ThunderRisk(a) && a.tempAvg > 3.0 ==>
      icon == (if HeavyRain(a) then Icons.HeavyRain else Icons.Rain)
    ensures !Icons.PrecipLikely(a) ==>
      icon == (if a.cloudAvg < 20.0 then Icons.Sun
               else if a.cloudAvg < 60.0 then Icons.LightCloud
               else if a.cloudAvg < 80.0 then Icons.Cloud
               else Icons.DarkCloud)
  {
    var precipLikely := Icons.PrecipLikely(a);
    if ThunderRisk(a) then Icons.Thunder
    else if a.tempAvg <= 1.5 && precipLikely then Icons.Snow
    else if a.tempAvg > 1.5 && a.tempAvg <= 3.0 && precipLikely then Icons.Sleet
    else if HeavyRain(a) then Icons.HeavyRain
    else if precipLikely then Icons.Rain
    else if a.cloudAvg < 20.0 then Icons.Sun
    else if a.cloudAvg < 60.0 then Icons.LightCloud
    else if a.cloudAvg >= 80.0 then Icons.DarkCloud
    else Icons.Cloud
  }

  /**
   * The two classifiers agree on whether a day is wet, but not on which
   * icon: thunder, heavy rain and dark cloud use different thresholds.
   */
  lemma ClassifiersAgreeOnWetness(a: Icons.DayStats)
    ensures Icons.Wet(Classify(a)) <==> Icons.Wet(Icons.Classify(a))
  {
  }

  lemma ClassifiersDiffer()
    ensures var a := Icons.DayStats(0.0, 0.0, 0.0, 82.0, 10.0, 0.0);
      Classify(a) == Icons.DarkCloud && Icons.Classify(a) == Icons.Cloud
    ensures var b := Icons.DayStats(2.0, 70.0, 40.0, 0.0, 10.0, 0.0);
      Classify(b) == Icons.Thunder && Icons.Classify(b) == Icons.Rain
    ensures var c := Icons.DayStats(4.0, 50.0, 0.0, 0.0, 10.0, 0.0);
      Classify(c) == Icons.HeavyRain && Icons.Classify(c) == Icons.Rain
  {
  }

  /** The entry for one date: 'cloud' when no hour matches. */
  function DayIcon(m: MiniSeries, d: string): (e: RegionDay)
    ensures e.date == d
    ensures Icons.HoursOf(m.hours, d) == [] ==> e.icon == Icons.Cloud
    ensures Icons.HoursOf(m.hours, d) != [] ==> e.icon == Classify(Icons.StatsOf(m, Icons.HoursOf(m.hours, d)))
  {
    var idx := Icons.HoursOf(m.hours, d);
    if |idx| == 0 then RegionDay(d, Icons.Cloud)
    else RegionDay(d, Classify(Icons.StatsOf(m, idx)))
  }

  function DailyIcons(m: MiniSeries, dates: seq<string>): (r: seq<RegionDay>)
    ensures |r| == |dates|
    ensures forall k :: 0 <= k < |dates| ==> r[k].date == dates[k]
    ensures forall k :: 0 <= k < |dates| ==> r[k] == DayIcon(m, dates[k])
  {
    seq(|dates|, k requires 0 <= k < |dates| => DayIcon(m, dates[k]))
  }

  /** A day's icon is wet exactly when precipitation is likely over its hours. */
  lemma DayWetIffPrecipLikely(m: MiniSeries, d: string)
    ensures var idx := Icons.HoursOf(m.hours, d);
      Icons.Wet(DayIcon(m, d).icon) <==> idx != [] && Icons.PrecipLikely(Icons.StatsOf(m, idx))
  {
  }

  /** `regions.find(r => r.id === id)` */
  function Find(catalog: seq<Rank.RegionInput>, id: string): (r: Option<nat>)
    ensures r.Some? ==> r.value < |catalog| && catalog[r.value].id == id
    ensures r.Some? ==> forall k :: 0 <= k < r.value ==> catalog[k].id != id
    ensures r.None? ==> forall k :: 0 <= k < |catalog| ==> catalog[k].id != id
  {
    if |catalog| == 0 then None
    else if catalog[0].id == id then Some(0)
    else match Find(catalog[1..], id)
      case None => None
      case Some(k) => Some(k + 1)
  }

  /**
   * The dates: with an empty parameter tomorrow, which normalising leaves as
   * it is; otherwise one canonical date per part, as the rank endpoint reads
   * them.
   */
  function ResolveDates(param: string, today: Civil): (dates: seq<string>)
    requires Valid(today)
    ensures param == "" ==> |dates| == 1
    ensures param == "" && today.year >= 100 ==> dates == PresetDates(Tomorrow, today)
    ensures param != "" ==> |dates| == |Rank.Parts(param)|
    ensures param != "" ==> forall k :: 0 <= k < |dates| ==> dates[k] == FormatDate(ParseDate(Rank.Parts(param)[k]))
  {
    if param == "" then
      TomorrowIsCanonical(today);
      Rank.Normalise([FormatDate(Some(NextDay(today)))])
    else Rank.ResolveDates(param, today)
  }

  /** Normalising changes nothing on tomorrow's date from the year 100 on. */
  lemma TomorrowIsCanonical(today: Civil)
    requires Valid(today)
    ensures today.year >= 100 ==> Rank.Normalise([FormatDate(Some(NextDay(today)))]) == PresetDates(Tomorrow, today)
  {
    if today.year >= 100 {
      PresetDaysNotEarlier(Tomorrow, today);
      Rank.CanonicalIsFixed([FormatDate(Some(NextDay(today)))], [NextDay(today)]);
    }
  }

  /**
   * The handler. Its query is the id, whether a home location was given,
   * the drive limit and the raw dates parameter; `today` is the local day.
   */
  method Handle(catalog: seq<Rank.RegionInput>, id: string, hasHome: bool, limit: Limit,
                datesParam: string, today: Civil)
    returns (r: Result<RegionReport, int>, calls: nat)
    requires Valid(today)
    ensures id == "" ==> r == Err(BadRequest) && calls == 0
    ensures id != "" && Find(catalog, id).None? ==> r == Err(NotFound) && calls == 0
    ensures id != "" && Find(catalog, id).Some? ==> 1 <= calls <= RegionAttempts
    ensures id != "" && Find(catalog, id).Some? ==>
      (r.Err? <==> AllFail(catalog[Find(catalog, id).value].outcome, RegionAttempts))
    ensures r.Err? && r.error == Unavailable ==> calls == RegionAttempts
    ensures id != "" && Find(catalog, id).Some? && r.Err? ==> r.error == Unavailable
    ensures r.Ok? ==> id != "" && Find(catalog, id).Some? && calls >= 1
    ensures r.Ok? ==>
      Reported(r.value, catalog[Find(catalog, id).value], calls, hasHome, limit, ResolveDates(datesParam, today))
  {
    if id == "" {
      return Err(BadRequest), 0;
    }
    var found := Find(catalog, id);
    if found.None? {
      return Err(NotFound), 0;
    }
    r, calls := FetchAndReport(catalog[found.value], hasHome, limit, ResolveDates(datesParam, today));
  }

  /**
   * `rep` is the report built from attempt `calls - 1`, the first whose
   * forecast had hours.
   */
  predicate Reported(rep: RegionReport, region: Rank.RegionInput, calls: nat, hasHome: bool, limit: Limit, dates: seq<string>) {
    && calls >= 1
    && AllFail(region.outcome, calls - 1)
    && Usable(region.outcome(calls - 1))
    && rep == Report(region, region.outcome(calls - 1).result, Rank.DistanceMins(region, hasHome), limit, dates)
  }

  /** The part of the handler after validation: fetch, then report or fail with 503. */
  method FetchAndReport(region: Rank.RegionInput, hasHome: bool, limit: Limit, dates: seq<string>)
    returns (r: Result<RegionReport, int>, calls: nat)
    ensures 1 <= calls <= RegionAttempts
    ensures r.Err? ==> r.error == Unavailable && calls == RegionAttempts
    ensures r.Err? <==> AllFail(region.outcome, RegionAttempts)
    ensures r.Ok? ==> Reported(r.value, region, calls, hasHome, limit, dates)
  {
    var out;
    out, calls := RegionFetch(region.outcome);
    if out.Err? {
      return Err(out.error), calls;
    }
    r := Ok(Report(region, out.value, Rank.DistanceMins(region, hasHome), limit, dates));
  }

  /** The response for a region and its fetched forecast. */
  function Report(region: Rank.RegionInput, out: ForecastResult, dist: int, limit: Limit, dates: seq<string>): (rep: RegionReport)
    ensures rep.id == region.id && rep.name == region.name && rep.distanceMins == dist
    ensures 0 <= rep.score <= 100 && |rep.why| <= 3
    ensures Scored(rep.score, rep.why) == ScoreRegion(out.mini, ScoreOptions(region.rocks, None, AnyType, dist as real, limit))
    ensures rep.daily == DailyIcons(out.mini, dates) && rep.updatedAt == out.updatedAt
    ensures rep.avgTempC == Icons.Round1(Avg(out.mini.temp)) && rep.avgWindMph == Icons.Round1(Avg(out.mini.wind))
      && rep.avgRainMm == Icons.Round1(Avg(out.mini.rainMm))
  {
    var mini := out.mini;
    var s := ScoreRegion(mini, ScoreOptions(region.rocks, None, AnyType, dist as real, limit));
    RegionReport(region.id, region.name, s.score, s.why, DailyIcons(mini, dates), dist,
      out.updatedAt, Icons.Round1(Avg(mini.temp)), Icons.Round1(Avg(mini.wind)), Icons.Round1(Avg(mini.rainMm)))
  }
}

=== FILE: retry.dfy ===
/**
 * `fetchForecastWithRetry` as it appears in server/api/rank.get.ts (three
 * attempts, null on failure) and server/api/region.get.ts (four attempts,
 * a 503 error on failure). The outcome of each `getForecast` call is an
 * input, indexed by attempt number; the sleeps become the list of delays.
 */
module Retry {
  import opened Wrappers
  import opened Forecast

  /** One call: it threw, or it returned a forecast. */
  datatype Attempt = Raised | Returned(result: ForecastResult)

  /** A returned forecast with at least one hour ends the retries. */
  predicate Usable(a: Attempt) {
    a.Returned? && |a.result.mini.hours| > 0
  }

  /** None of the first n attempts gives a usable forecast. */
  predicate AllFail(outcome: nat -> Attempt, n: nat) {
    forall j :: 0 <= j < n ==> !Usable(outcome(j))
  }

  function Pow2(i: nat): (p: nat)
    ensures p >= 1
  {
    if i == 0 then 1 else 2 * Pow2(i - 1)
  }

  /** `300 * Math.pow(2, i)` milliseconds after failed attempt i. */
  function Backoff(i: nat): nat {
    300 * Pow2(i)
  }

  /** The first usable attempt among attempts `from` .. `attempts - 1`. */
  function FirstUsable(outcome: nat -> Attempt, from: nat, attempts: nat): (j: Option<nat>)
    ensures j.Some? ==> from <= j.value < attempts && Usable(outcome(j.value))
    ensures j.Some? ==> forall i :: from <= i < j.value ==> !Usable(outcome(i))
    ensures j.None? ==> forall i :: from <= i < attempts ==> !Usable(outcome(i))
    decreases attempts - from
  {
    if from >= attempts then None
    else if Usable(outcome(from)) then Some(from)
    else FirstUsable(outcome, from + 1, attempts)
  }

  /** The forecast found (if any), the number of calls made, the sleeps taken. */
  datatype RetryRun = RetryRun(result: Option<ForecastResult>, calls: nat, delays: seq<nat>)

  /**
   * Call until a usable forecast comes back or the attempts run out,
   * sleeping `Backoff(i)` after every failed attempt, the last included.
   */
  method FetchWithRetry(outcome: nat -> Attempt, attempts: nat) returns (run: RetryRun)
    ensures run.calls <= attempts
    ensures forall j :: 0 <= j < run.calls && (run.result.None? || j < run.calls - 1) ==> !Usable(outcome(j))
    ensures run.result.Some? ==>
      run.calls >= 1 && Usable(outcome(run.calls - 1)) && run.result.value == outcome(run.calls - 1).result
    ensures run.result.None? ==> run.calls == attempts
    ensures |run.delays| == (if run.result.Some? then run.calls - 1 else run.calls)
    ensures forall k :: 0 <= k < |run.delays| ==> run.delays[k] == Backoff(k)
    ensures run.result.Some? <==> FirstUsable(outcome, 0, attempts).Some?
    ensures run.result.Some? ==> run.calls == FirstUsable(outcome, 0, attempts).value + 1
  {
    var i := 0;
    var delays: seq<nat> := [];
    while i < attempts
      invariant i <= attempts
      invariant forall j :: 0 <= j < i ==> !Usable(outcome(j))
      invariant |delays| == i
      invariant forall k :: 0 <= k < i ==> delays[k] == Backoff(k)
    {
      var a := outcome(i);
      if Usable(a) {
        return RetryRun(Some(a.result), i + 1, delays);
      }
      delays := delays + [Backoff(i)];
      i := i + 1;
    }
    return RetryRun(None, attempts, delays);
  }

  /** The rank endpoint's retry: three attempts, `null` when all fail. */
  method RankFetch(outcome: nat -> Attempt) returns (r: Option<ForecastResult>, calls: nat)
    ensures 1 <= calls <= 3
    ensures AllFail(outcome, calls - 1)
    ensures r.Some? <==> !AllFail(outcome, 3)
    ensures r.Some? ==> Usable(outcome(calls - 1)) && r.value == outcome(calls - 1).result
    ensures r.None? ==> calls == 3
  {
    var run := FetchWithRetry(outcome, 3);
    r, calls := run.result, run.calls;
    assert AllFail(outcome, calls - 1);
  }

  /** HTTP status of `createError` when every attempt failed. */
  const Unavailable := 503

  /** The region endpoint's retry: four attempts, then a 503 error. */
  method RegionFetch(outcome: nat -> Attempt) returns (r: Result<ForecastResult, int>, calls: nat)
    ensures 1 <= calls <= 4
    ensures AllFail(outcome, calls - 1)
    ensures r.Ok? <==> !AllFail(outcome, 4)
    ensures r.Ok? ==> Usable(outcome(calls - 1)) && r.value == outcome(calls - 1).result
    ensures r.Err? ==> r.error == Unavailable && calls == 4
  {
    var run := FetchWithRetry(outcome, 4);
    calls := run.calls;
    assert AllFail(outcome, calls - 1);
    if run.result.Some? {
      r := Ok(run.result.value);
    } else {
      r := Err(Unavailable);
    }
  }

  /** The delays double: 300, 600, 1200, ... milliseconds. */
  lemma BackoffDoubles(i: nat)
    ensures Backoff(0) == 300 && Backoff(i + 1) == 2 * Backoff(i)
  {
  }
}

=== FILE: score.dfy ===
/**
 * The suitability scorer of server/utils/score.ts: window-wide aggregates,
 * rock type and travel distance become a 0..100 integer score and up to
 * three reasons.
 */
module Score {
  import opened Wrappers
  import opened Series

  /** The friction temperature band, in degrees C. */
  datatype Band = Band(min: real, max: real)

  /** `tempTarget`: exact membership of a rock name anywhere in the list. */
  function TempTarget(rocks: seq<string>): (b: Band)
    ensures b.min < b.max
    ensures b == Band(6.0, 12.0) <==> "gritstone" in rocks || "sandstone" in rocks
    ensures b == Band(12.0, 18.0) <==> "limestone" in rocks && "gritstone" !in rocks && "sandstone" !in rocks
    ensures b == Band(8.0, 16.0) <==> "limestone" !in rocks && "gritstone" !in rocks && "sandstone" !in rocks
  {
    if "gritstone" in rocks || "sandstone" in rocks then Band(6.0, 12.0)
    else if "limestone" in rocks then Band(12.0, 18.0)
    else Band(8.0, 16.0)
  }

  /**
   * The catalog writes gritstone as "grit", which is not one of the names
   * the band rule looks for, so those regions get the default band.
   */
  lemma CatalogGritGetsDefaultBand()
    ensures TempTarget(["grit"]) == Band(8.0, 16.0)
    ensures TempTarget(["grit", "limestone"]) == Band(12.0, 18.0)
  {
  }

  /** A drive limit in minutes; `Infinity` when the caller gave none. */
  datatype Limit = Finite(mins: real) | Unlimited

  datatype ClimbType = Trad | Sport | Boulder | AnyType
  datatype Affinity = Affinity(trad: real, sport: real, boulder: real)

  datatype ScoreOptions = ScoreOptions(
    rocks: seq<string>,
    typeAffinity: Option<Affinity>,
    climbType: ClimbType,
    distanceMins: real,
    maxDriveMins: Limit)

  datatype Reason = DryForecast | LightWinds | GoodTemps | WarmSeekShade | SomeSun | CloseBy

  /** The position of each reason in the fixed push order. */
  function Rank(r: Reason): nat {
    match r
    case DryForecast => 0
    case LightWinds => 1
    case GoodTemps => 2
    case WarmSeekShade => 3
    case SomeSun => 4
    case CloseBy => 5
  }

  function Text(r: Reason): string {
    match r
    case DryForecast => "Dry forecast"
    case LightWinds => "Light winds"
    case GoodTemps => "Good temps for friction"
    case WarmSeekShade => "Warm, seek shade"
    case SomeSun => "Some sun for drying"
    case CloseBy => "Close by"
  }

  datatype Scored = Scored(score: int, why: seq<Reason>)

  /** Aggregates over the whole requested window. */
  datatype WindowStats = WindowStats(rain: real, pop: real, wind: real, gust: real, temp: real, cloud: real)

  function WindowOf(m: MiniSeries): WindowStats {
    WindowStats(Avg(m.rainMm), Avg(m.pop), Avg(m.wind), Max(m.gust), Avg(m.temp), Avg(m.cloud))
  }

  function Clamp(x: real, lo: real, hi: real): (r: real)
    requires lo <= hi
    ensures lo <= r <= hi
    ensures lo <= x <= hi ==> r == x
  {
    if x < lo then lo else if x > hi then hi else x
  }

  /** Dryness percentage; more rain or higher rain probability lowers it. */
  function DrynessPct(rain: real, pop: real): (d: real)
    ensures d >= 0.0
    ensures rain >= 0.0 && pop >= 0.0 ==> d <= 100.0
    ensures rain == 0.0 && pop == 0.0 ==> d == 100.0
  {
    if 100.0 - (rain * 12.0 + pop * 0.6) > 0.0 then 100.0 - (rain * 12.0 + pop * 0.6) else 0.0
  }

  /** Wind sub-score out of 25. */
  function WindScore(wind: real, gust: real): (s: real)
    ensures 0.0 <= s <= 25.0
    ensures s == 25.0 <==> wind <= 25.0 && gust <= 30.0
  {
    var penalty := (if wind > 25.0 then (wind - 25.0) * 0.8 else 0.0)
      + (if gust > 30.0 then (gust - 30.0) * 0.5 else 0.0);
    if 25.0 - penalty > 0.0 then 25.0 - penalty else 0.0
  }

  /** Friction fraction: full inside the band, falling to 0 ten degrees outside it. */
  function FrictionPct(temp: real, b: Band): (f: real)
    requires b.min <= b.max
    ensures 0.0 <= f <= 1.0
    ensures f == 1.0 <==> b.min <= temp <= b.max
    ensures temp <= b.min - 10.0 || temp >= b.max + 10.0 ==> f == 0.0
  {
    if temp < b.min then (if 1.0 - (b.min - temp) / 10.0 > 0.0 then 1.0 - (b.min - temp) / 10.0 else 0.0)
    else if temp > b.max then (if 1.0 - (temp - b.max) / 10.0 > 0.0 then 1.0 - (temp - b.max) / 10.0 else 0.0)
    else 1.0
  }

  /** Cloud is welcome when too warm, sun otherwise. */
  function CloudBonus(temp: real, cloud: real, b: Band): (c: real)
    ensures 0.0 <= cloud <= 100.0 ==> 0.0 <= c <= 10.0
  {
    if temp > b.max then (cloud / 100.0) * 10.0 else (1.0 - cloud / 100.0) * 5.0
  }

  /** The distance multiplier. */
  function DistMultiplier(dist: real, limit: Limit): (k: real)
    ensures 0.6 <= k <= 1.0
    ensures limit.Unlimited? ==> k == 1.0
    ensures limit.Finite? ==> (k == 1.0 <==> dist <= (if limit.mins > 30.0 then limit.mins else 30.0))
  {
    match limit
    case Unlimited => 1.0
    case Finite(mins) =>
      var maxMins := if mins > 30.0 then mins else 30.0;
      if dist <= maxMins then 1.0
      else if 1.0 - (dist - maxMins) / 180.0 > 0.6 then 1.0 - (dist - maxMins) / 180.0
      else 0.6
  }

  /** The climb-type multiplier; the endpoints pass no affinity, giving 1. */
  function TypeMultiplier(o: ScoreOptions): (k: real)
    ensures 0.9 <= k <= 1.0
    ensures o.climbType == AnyType || o.typeAffinity.None? ==> k == 1.0
  {
    if o.climbType != AnyType && o.typeAffinity.Some? then
      var a := o.typeAffinity.value;
      var m := match o.climbType
        case Trad => a.trad
        case Sport => a.sport
        case _ => a.boulder;
      var capped := if m < 1.0 then m else 1.0;
      if capped > 0.9 then capped else 0.9
    else 1.0
  }

  function BaseScore(w: WindowStats, b: Band): (s: real)
    requires b.min <= b.max
    ensures 0.0 <= s <= 100.0
  {
    Clamp(DrynessPct(w.rain, w.pop) / 100.0 * 40.0 + WindScore(w.wind, w.gust)
      + FrictionPct(w.temp, b) * 20.0 + CloudBonus(w.temp, w.cloud, b), 0.0, 100.0)
  }

  predicate InPushOrder(why: seq<Reason>) {
    forall i, j :: 0 <= i < j < |why| ==> Rank(why[i]) < Rank(why[j])
  }

  /** Whether `scoreRegion` pushes reason `x`. */
  predicate Pushes(w: WindowStats, b: Band, dist: real, x: Reason)
    requires b.min <= b.max
  {
    match x
    case DryForecast => DrynessPct(w.rain, w.pop) > 80.0
    case LightWinds => w.wind < 15.0 && w.gust < 25.0
    case GoodTemps => FrictionPct(w.temp, b) >= 0.9
    case WarmSeekShade => !(FrictionPct(w.temp, b) >= 0.9) && w.temp > b.max
    case SomeSun => w.cloud < 40.0 && w.temp <= b.max
    case CloseBy => dist <= 60.0
  }

  const AllReasons: seq<Reason> := [DryForecast, LightWinds, GoodTemps, WarmSeekShade, SomeSun, CloseBy]

  /** Every reason appears in the push-order list. */
  lemma AllReasonsComplete(x: Reason)
    ensures x in AllReasons && AllReasons[Rank(x)] == x
  {
  }

  /** The entries of `rs` that `scoreRegion` pushes, in their order. */
  function Select(rs: seq<Reason>, w: WindowStats, b: Band, dist: real): (r: seq<Reason>)
    requires b.min <= b.max
    ensures forall x :: x in r <==> x in rs && Pushes(w, b, dist, x)
    ensures InPushOrder(rs) ==> InPushOrder(r)
  {
    if |rs| == 0 then []
    else
      var rest := Select(rs[1..], w, b, dist);
      assert InPushOrder(rs) ==> forall x :: x in rest ==> Rank(rs[0]) < Rank(x);
      if Pushes(w, b, dist, rs[0]) then [rs[0]] + rest else rest
  }

  /** The reasons before truncation, in push order. */
  function Reasons(w: WindowStats, b: Band, dist: real): (why: seq<Reason>)
    requires b.min <= b.max
    ensures InPushOrder(why)
    ensures forall x :: x in why <==> Pushes(w, b, dist, x)
    ensures WarmSeekShade in why ==> GoodTemps !in why && SomeSun !in why
  {
    var why := Select(AllReasons, w, b, dist);
    forall x ensures x in why <==> Pushes(w, b, dist, x) {
      AllReasonsComplete(x);
    }
    why
  }

  /** In push order, a reason sits no later than its rank. */
  lemma {:induction false} PushOrderIndex(why: seq<Reason>, i: nat)
    requires InPushOrder(why) && i < |why|
    ensures i <= Rank(why[i])
  {
    if i > 0 {
      PushOrderIndex(why, i - 1);
    }
  }

  /** A list in push order is determined by its members. */
  lemma {:induction false} PushOrderUnique(a: seq<Reason>, b: seq<Reason>)
    requires InPushOrder(a) && InPushOrder(b)
    requires forall x :: x in a <==> x in b
    ensures a == b
  {
    assert |a| > 0 ==> a[0] in a && |b| > 0;
    assert |b| > 0 ==> b[0] in b && |a| > 0;
    if |a| > 0 {
      assert a[0] in a && b[0] in b;
      var i :| 0 <= i < |a| && a[i] == b[0];
      var j :| 0 <= j < |b| && b[j] == a[0];
      assert Rank(a[0]) <= Rank(a[i]);
      assert Rank(b[0]) <= Rank(b[j]);
      assert a[0] == b[0];
      forall x ensures x in a[1..] <==> x in b[1..] {
        if x in a[1..] {
          var k :| 0 <= k < |a[1..]| && a[1..][k] == x;
          assert a[k + 1] == x && x != a[0] && x in b;
          var l :| 0 <= l < |b| && b[l] == x;
          assert l != 0 && b[1..][l - 1] == x;
        }
        if x in b[1..] {
          var k :| 0 <= k < |b[1..]| && b[1..][k] == x;
          assert b[k + 1] == x && x != b[0] && x in a;
          var l :| 0 <= l < |a| && a[l] == x;
          assert l != 0 && a[1..][l - 1] == x;
        }
      }
      PushOrderUnique(a[1..], b[1..]);
    }
  }

  /**
   * `why.slice(0, 3)`: the first three reasons, or all of them when there
   * are fewer; the reasons of rank at most 3 all survive it.
   */
  function Truncate(why: seq<Reason>): (r: seq<Reason>)
    requires InPushOrder(why)
    requires WarmSeekShade in why ==> GoodTemps !in why
    ensures |r| == (if |why| < 3 then |why| else 3) && r == why[..|r|]
    ensures InPushOrder(r)
    ensures forall x :: x in r ==> x in why
    ensures forall x :: x in why && Rank(x) <= 3 ==> x in r
    ensures forall x, y :: x in r && y in why && Rank(y) < Rank(x) ==> y in r
  {
    if |why| <= 3 then why
    else
      PrefixKeepsEarlier(why, 3);
      forall x | x in why && Rank(x) <= 3 ensures x in why[..3] {
        var i :| 0 <= i < |why| && why[i] == x;
        PushOrderIndex(why, i);
        if i == 3 {
          PushOrderIndex(why, 2);
          assert false;
        }
      }
      why[..3]
  }

  /** A prefix of a push-ordered list holds every entry pushed before one of its own. */
  lemma PrefixKeepsEarlier(why: seq<Reason>, n: nat)
    requires InPushOrder(why) && n <= |why|
    ensures forall x, y :: x in why[..n] && y in why && Rank(y) < Rank(x) ==> y in why[..n]
  {
    forall x, y | x in why[..n] && y in why && Rank(y) < Rank(x)
      ensures y in why[..n]
    {
      var i :| 0 <= i < n && why[..n][i] == x;
      var j :| 0 <= j < |why| && why[j] == y;
      assert why[i] == x;
      assert j < i;
      assert why[..n][j] == y;
    }
  }

  /** No pushed reason is passed over in favour of one pushed after it. */
  predicate KeepsEarlier(why: seq<Reason>, w: WindowStats, b: Band, dist: real)
    requires b.min <= b.max
  {
    forall x, y :: x in why && Pushes(w, b, dist, y) && Rank(y) < Rank(x) ==> y in why
  }

  /**
   * `scoreRegion` on the window aggregates: every reported reason was pushed,
   * every pushed reason of rank at most 3 survives the truncation, and no
   * pushed reason is passed over for a later one.
   */
  function ScoreWindow(w: WindowStats, o: ScoreOptions): (r: Scored)
    ensures 0 <= r.score <= 100
    ensures |r.why| <= 3 && InPushOrder(r.why)
    ensures WarmSeekShade in r.why ==> GoodTemps !in r.why && SomeSun !in r.why
    ensures forall x :: x in r.why ==> Pushes(w, TempTarget(o.rocks), o.distanceMins, x)
    ensures forall x :: Rank(x) <= 3 && Pushes(w, TempTarget(o.rocks), o.distanceMins, x) ==> x in r.why
    ensures forall x :: |r.why| < 3 && Pushes(w, TempTarget(o.rocks), o.distanceMins, x) ==> x in r.why
    ensures KeepsEarlier(r.why, w, TempTarget(o.rocks), o.distanceMins)
  {
    var b := TempTarget(o.rocks);
    var why := Reasons(w, b, o.distanceMins);
    Scored(FinalScore(w, o), Truncate(why))
  }

  /** The combined distance and climb-type multiplier. */
  function Multiplier(o: ScoreOptions): (k: real)
    ensures 0.0 <= k <= 1.0
  {
    var dm, tm := DistMultiplier(o.distanceMins, o.maxDriveMins), TypeMultiplier(o);
    MulBounds(dm, tm);
    dm * tm
  }

  /** The base score scaled by a multiplier, clamped to [0, 100] and rounded half up. */
  function Scale(base: real, k: real): (n: int)
    ensures 0 <= n <= 100
    ensures var x := Clamp(base * k, 0.0, 100.0); x - 0.5 < n as real <= x + 0.5
  {
    Round(Clamp(base * k, 0.0, 100.0))
  }

  function FinalScore(w: WindowStats, o: ScoreOptions): (n: int)
    ensures 0 <= n <= 100
  {
    Scale(BaseScore(w, TempTarget(o.rocks)), Multiplier(o))
  }

  /** `scoreRegion(mini, opts)` */
  function ScoreRegion(m: MiniSeries, o: ScoreOptions): (r: Scored)
    ensures 0 <= r.score <= 100
    ensures |r.why| <= 3 && InPushOrder(r.why)
    ensures WarmSeekShade in r.why ==> GoodTemps !in r.why && SomeSun !in r.why
    ensures forall x :: x in r.why ==> Pushes(WindowOf(m), TempTarget(o.rocks), o.distanceMins, x)
    ensures forall x :: Rank(x) <= 3 && Pushes(WindowOf(m), TempTarget(o.rocks), o.distanceMins, x) ==> x in r.why
    ensures forall x :: |r.why| < 3 && Pushes(WindowOf(m), TempTarget(o.rocks), o.distanceMins, x) ==> x in r.why
    ensures KeepsEarlier(r.why, WindowOf(m), TempTarget(o.rocks), o.distanceMins)
  {
    ScoreWindow(WindowOf(m), o)
  }

  lemma ClampMonotone(x: real, y: real, lo: real, hi: real)
    requires lo <= hi && x <= y
    ensures Clamp(x, lo, hi) <= Clamp(y, lo, hi)
  {
  }

  lemma ScaleMonotone(x: real, y: real, k: real)
    requires x <= y && k >= 0.0
    ensures Scale(x, k) <= Scale(y, k)
  {
    assert x * k <= y * k;
    ClampMonotone(x * k, y * k, 0.0, 100.0);
    RoundMonotone(Clamp(x * k, 0.0, 100.0), Clamp(y * k, 0.0, 100.0));
  }

  lemma MulNonNeg(x: real, y: real)
    requires x >= 0.0 && y >= 0.0
    ensures x * y >= 0.0
  {
  }

  lemma MulBounds(x: real, y: real)
    requires 0.0 <= x <= 1.0 && 0.0 <= y <= 1.0
    ensures 0.0 <= x * y <= 1.0
  {
    MulNonNeg(x, 1.0 - y);
    assert x * (1.0 - y) == x - x * y;
    MulNonNeg(x, y);
  }

  /**
   * Holding wind, temperature, cloud, rock and distance fixed, a wetter
   * window (more mean rain or a higher mean rain probability) never scores
   * higher.
   */
  lemma ScoreNonIncreasingInWetness(w1: WindowStats, w2: WindowStats, o: ScoreOptions)
    requires w2 == w1.(rain := w2.rain, pop := w2.pop)
    requires w1.rain <= w2.rain && w1.pop <= w2.pop
    ensures ScoreWindow(w2, o).score <= ScoreWindow(w1, o).score
  {
    var b := TempTarget(o.rocks);
    BaseNonIncreasingInWetness(w1, w2, b);
    ScaleMonotone(BaseScore(w2, b), BaseScore(w1, b), Multiplier(o));
  }

  lemma BaseNonIncreasingInWetness(w1: WindowStats, w2: WindowStats, b: Band)
    requires b.min <= b.max
    requires w2 == w1.(rain := w2.rain, pop := w2.pop)
    requires w1.rain <= w2.rain && w1.pop <= w2.pop
    ensures BaseScore(w2, b) <= BaseScore(w1, b)
  {
    var d1, d2 := DrynessPct(w1.rain, w1.pop), DrynessPct(w2.rain, w2.pop);
    assert d2 <= d1;
    var rest := WindScore(w1.wind, w1.gust) + FrictionPct(w1.temp, b) * 20.0 + CloudBonus(w1.temp, w1.cloud, b);
    assert BaseScore(w1, b) == Clamp(d1 / 100.0 * 40.0 + rest, 0.0, 100.0);
    assert BaseScore(w2, b) == Clamp(d2 / 100.0 * 40.0 + rest, 0.0, 100.0);
    ClampMonotone(d2 / 100.0 * 40.0 + rest, d1 / 100.0 * 40.0 + rest, 0.0, 100.0);
  }

  /**
   * The same on hourly series: raising any hour's rain or rain probability,
   * everything else unchanged, never raises the score.
   */
  lemma SeriesScoreNonIncreasingInWetness(m1: MiniSeries, m2: MiniSeries, o: ScoreOptions)
    requires m2 == m1.(rainMm := m2.rainMm, pop := m2.pop)
    requires PointwiseLe(m1.rainMm, m2.rainMm) && PointwiseLe(m1.pop, m2.pop)
    ensures ScoreRegion(m2, o).score <= ScoreRegion(m1, o).score
  {
    AvgMonotone(m1.rainMm, m2.rainMm);
    AvgMonotone(m1.pop, m2.pop);
    ScoreNonIncreasingInWetness(WindowOf(m1), WindowOf(m2), o);
  }

  lemma Sum3(a: real, b: real, c: real)
    ensures Sum([a, b, c]) == a + b + c
  {
    assert [a][..0] == [];
    assert Sum([a]) == a;
    assert [a, b][..1] == [a];
    assert Sum([a, b]) == a + b;
    assert [a, b, c][..2] == [a, b];
  }

  /**
   * The unit-test window: dry, light winds, 10..12 C on gritstone, 30 of
   * 120 minutes away. Exact arithmetic gives 88.5 before rounding.
   */
  lemma UnitTestScore()
    ensures
      var m := MiniSeries([], [0.0, 0.0, 0.0], [0.0, 0.0, 0.0], [10.0, 12.0, 8.0],
                          [15.0, 18.0, 20.0], [10.0, 11.0, 12.0], [20.0, 30.0, 40.0]);
      var o := ScoreOptions(["gritstone"], None, AnyType, 30.0, Finite(120.0));
      ScoreRegion(m, o) == Scored(89, [DryForecast, LightWinds, GoodTemps])
  {
    var m := MiniSeries([], [0.0, 0.0, 0.0], [0.0, 0.0, 0.0], [10.0, 12.0, 8.0],
                        [15.0, 18.0, 20.0], [10.0, 11.0, 12.0], [20.0, 30.0, 40.0]);
    var o := ScoreOptions(["gritstone"], None, AnyType, 30.0, Finite(120.0));
    UnitTestWindow(m);
    var w := WindowStats(0.0, 0.0, 10.0, 20.0, 11.0, 30.0);
    UnitTestParts(w, o);
  }

  lemma UnitTestWindow(m: MiniSeries)
    requires m == MiniSeries([], [0.0, 0.0, 0.0], [0.0, 0.0, 0.0], [10.0, 12.0, 8.0],
                             [15.0, 18.0, 20.0], [10.0, 11.0, 12.0], [20.0, 30.0, 40.0])
    ensures WindowOf(m) == WindowStats(0.0, 0.0, 10.0, 20.0, 11.0, 30.0)
  {
    Sum3(10.0, 12.0, 8.0);
    Sum3(10.0, 11.0, 12.0);
    Sum3(20.0, 30.0, 40.0);
    Sum3(0.0, 0.0, 0.0);
    assert Max(m.gust) == 20.0;
  }

  lemma UnitTestParts(w: WindowStats, o: ScoreOptions)
    requires w == WindowStats(0.0, 0.0, 10.0, 20.0, 11.0, 30.0)
    requires o == ScoreOptions(["gritstone"], None, AnyType, 30.0, Finite(120.0))
    ensures ScoreWindow(w, o) == Scored(89, [DryForecast, LightWinds, GoodTemps])
  {
    UnitTestFinal(w, o);
    UnitTestTruncated(w, o);
  }

  lemma UnitTestTruncated(w: WindowStats, o: ScoreOptions)
    requires w == WindowStats(0.0, 0.0, 10.0, 20.0, 11.0, 30.0)
    requires o == ScoreOptions(["gritstone"], None, AnyType, 30.0, Finite(120.0))
    ensures Truncate(Reasons(w, TempTarget(o.rocks), o.distanceMins)) == [DryForecast, LightWinds, GoodTemps]
  {
    var b := TempTarget(o.rocks);
    assert b == Band(6.0, 12.0);
    var why := Reasons(w, b, o.distanceMins);
    assert why == [DryForecast, LightWinds, GoodTemps, SomeSun, CloseBy] by {
      UnitTestReasons(w, b);
    }
    TruncateLong(why);
  }

  lemma TruncateLong(why: seq<Reason>)
    requires InPushOrder(why) && (WarmSeekShade in why ==> GoodTemps !in why) && |why| > 3
    ensures Truncate(why) == why[..3]
  {
  }

  lemma UnitTestFinal(w: WindowStats, o: ScoreOptions)
    requires w == WindowStats(0.0, 0.0, 10.0, 20.0, 11.0, 30.0)
    requires o == ScoreOptions(["gritstone"], None, AnyType, 30.0, Finite(120.0))
    ensures FinalScore(w, o) == 89
  {
    var b := TempTarget(o.rocks);
    assert b == Band(6.0, 12.0);
    assert DrynessPct(0.0, 0.0) == 100.0;
    assert WindScore(10.0, 20.0) == 25.0;
    assert FrictionPct(11.0, b) == 1.0;
    assert CloudBonus(11.0, 30.0, b) == 3.5;
    assert BaseScore(w, b) == 88.5;
    assert DistMultiplier(30.0, Finite(120.0)) == 1.0;
    assert TypeMultiplier(o) == 1.0;
    assert Multiplier(o) == 1.0;
    assert Scale(88.5, 1.0) == 89;
  }

  lemma UnitTestOrder(e: seq<Reason>)
    requires e == [DryForecast, LightWinds, GoodTemps, SomeSun, CloseBy]
    ensures InPushOrder(e)
  {
    forall i, j | 0 <= i < j < |e| ensures Rank(e[i]) < Rank(e[j]) {
      assert Rank(e[i]) == [0, 1, 2, 4, 5][i];
      assert Rank(e[j]) == [0, 1, 2, 4, 5][j];
    }
  }

  lemma UnitTestReasons(w: WindowStats, b: Band)
    requires w == WindowStats(0.0, 0.0, 10.0, 20.0, 11.0, 30.0)
    requires b == Band(6.0, 12.0)
    ensures Reasons(w, b, 30.0) == [DryForecast, LightWinds, GoodTemps, SomeSun, CloseBy]
  {
    var why := Reasons(w, b, 30.0);
    var expected := [DryForecast, LightWinds, GoodTemps, SomeSun, CloseBy];
    UnitTestPushes(w, b, expected);
    UnitTestOrder(expected);
    PushOrderUnique(why, expected);
  }

  /** For the unit-test window every reason but 'Warm, seek shade' is pushed. */
  lemma UnitTestPushes(w: WindowStats, b: Band, expected: seq<Reason>)
    requires w == WindowStats(0.0, 0.0, 10.0, 20.0, 11.0, 30.0)
    requires b == Band(6.0, 12.0)
    requires expected == [DryForecast, LightWinds, GoodTemps, SomeSun, CloseBy]
    ensures forall x :: Pushes(w, b, 30.0, x) <==> x in expected
  {
    assert FrictionPct(11.0, b) == 1.0;
    forall x ensures Pushes(w, b, 30.0, x) <==> x in expected {
      match x {
        case DryForecast => assert expected[0] == x;
        case LightWinds => assert expected[1] == x;
        case GoodTemps => assert expected[2] == x;
        case WarmSeekShade =>
        case SomeSun => assert expected[3] == x;
        case CloseBy => assert expected[4] == x;
      }
    }
  }
}

=== FILE: series.dfy ===
/**
 * The hourly "mini series" shared by the forecast cache, the classifier and
 * the scorer, and the three aggregates (`sum`, `avg`, `max`) the source
 * defines over number arrays.
 */
module Series {

  /** Parallel arrays; index i of every array describes the hour `hours[i]`. */
  datatype MiniSeries = MiniSeries(
    hours: seq<string>,
    rainMm: seq<real>,
    pop: seq<real>,
    wind: seq<real>,
    gust: seq<real>,
    temp: seq<real>,
    cloud: seq<real>)

  const Empty := MiniSeries([], [], [], [], [], [], [])

  /** All seven arrays have the same length. */
  predicate WellFormed(m: MiniSeries) {
    && |m.rainMm| == |m.hours| && |m.pop| == |m.hours| && |m.wind| == |m.hours|
    && |m.gust| == |m.hours| && |m.temp| == |m.hours| && |m.cloud| == |m.hours|
  }

  /** `a[i] || 0`: a missing entry reads as 0. */
  function At(a: seq<real>, i: nat): real {
    if i < |a| then a[i] else 0.0
  }

  /** `a.reduce((s, x) => s + x, 0)` */
  function Sum(a: seq<real>): real {
    if |a| == 0 then 0.0 else Sum(a[..|a| - 1]) + a[|a| - 1]
  }

  /** Arithmetic mean; 0 for an empty array. */
  function Avg(a: seq<real>): (r: real)
    ensures |a| == 0 ==> r == 0.0
  {
    if |a| == 0 then 0.0 else Sum(a) / (|a| as real)
  }

  /** `Math.max(...a)`, or 0 for an empty array. */
  function Max(a: seq<real>): (r: real)
    ensures |a| == 0 ==> r == 0.0
    ensures forall i :: 0 <= i < |a| ==> a[i] <= r
    ensures |a| > 0 ==> exists i :: 0 <= i < |a| && a[i] == r
  {
    if |a| <= 1 then (if |a| == 0 then 0.0 else a[0])
    else
      var m := Max(a[..|a| - 1]);
      if a[|a| - 1] > m then a[|a| - 1] else m
  }

  /** `Math.round` over exact reals: round half up. */
  function Round(x: real): (n: int)
    ensures x - 0.5 < n as real <= x + 0.5
  {
    (x + 0.5).Floor
  }

  lemma RoundMonotone(x: real, y: real)
    requires x <= y
    ensures Round(x) <= Round(y)
  {
  }

  /** Pointwise order on equally long arrays. */
  predicate PointwiseLe(a: seq<real>, b: seq<real>) {
    |a| == |b| && forall i :: 0 <= i < |a| ==> a[i] <= b[i]
  }

  lemma {:induction false} SumMonotone(a: seq<real>, b: seq<real>)
    requires PointwiseLe(a, b)
    ensures Sum(a) <= Sum(b)
  {
    if |a| > 0 {
      SumMonotone(a[..|a| - 1], b[..|b| - 1]);
    }
  }

  lemma {:induction false} SumBounds(a: seq<real>, lo: real, hi: real)
    requires forall i :: 0 <= i < |a| ==> lo <= a[i] <= hi
    ensures (|a| as real) * lo <= Sum(a) <= (|a| as real) * hi
  {
    if |a| > 0 {
      SumBounds(a[..|a| - 1], lo, hi);
    }
  }

  /** Raising any entry never lowers the mean. */
  lemma AvgMonotone(a: seq<real>, b: seq<real>)
    requires PointwiseLe(a, b)
    ensures Avg(a) <= Avg(b)
  {
    if |a| > 0 {
      SumMonotone(a, b);
      DivMonotone(Sum(a), Sum(b), |a| as real);
    }
  }

  /** The mean lies between any lower and upper bound of the entries. */
  lemma AvgBounds(a: seq<real>, lo: real, hi: real)
    requires |a| > 0
    requires forall i :: 0 <= i < |a| ==> lo <= a[i] <= hi
    ensures lo <= Avg(a) <= hi
  {
    SumBounds(a, lo, hi);
    DivBetween(Sum(a), |a| as real, lo, hi);
  }

  lemma DivBetween(s: real, n: real, lo: real, hi: real)
    requires n > 0.0 && n * lo <= s <= n * hi
    ensures lo <= s / n <= hi
  {
    var q := s / n;
    assert s == n * q;
    assert n * (q - lo) >= 0.0 && n * (hi - q) >= 0.0;
  }

  lemma DivMonotone(x: real, y: real, n: real)
    requires n > 0.0 && x <= y
    ensures x / n <= y / n
  {
  }
}

=== FILE: sorting.dfy ===
/**
 * `results.sort((a, b) => b.score - a.score)` in server/api/rank.get.ts:
 * JavaScript's `Array.prototype.sort` is stable, so the result is ordered
 * by descending score and ties keep their original order.
 */
module Sorting {

  /** Non-increasing by key. */
  predicate SortedDesc<T>(s: seq<T>, key: T -> int) {
    forall i, j :: 0 <= i < j < |s| ==> key(s[i]) >= key(s[j])
  }

  /** The elements whose key is v, in order. */
  function WithKey<T>(s: seq<T>, key: T -> int, v: int): (r: seq<T>)
    ensures |r| <= |s|
  {
    if |s| == 0 then []
    else if key(s[0]) == v then [s[0]] + WithKey(s[1..], key, v)
    else WithKey(s[1..], key, v)
  }

  /** Put x in front of the first element whose key is not above its own. */
  function Insert<T>(x: T, s: seq<T>, key: T -> int): (r: seq<T>)
    ensures |r| == |s| + 1
    ensures multiset(r) == multiset(s) + multiset{x}
  {
    if |s| == 0 || key(s[0]) <= key(x) then [x] + s
    else
      assert s == [s[0]] + s[1..];
      [s[0]] + Insert(x, s[1..], key)
  }

  /** Stable sort by descending key (insertion sort). */
  function SortDesc<T>(s: seq<T>, key: T -> int): (r: seq<T>)
    ensures |r| == |s|
    ensures multiset(r) == multiset(s)
  {
    if |s| == 0 then []
    else
      assert s == [s[0]] + s[1..];
      Insert(s[0], SortDesc(s[1..], key), key)
  }

  lemma {:induction false} InsertSorted<T>(x: T, s: seq<T>, key: T -> int)
    requires SortedDesc(s, key)
    ensures SortedDesc(Insert(x, s, key), key)
    ensures |s| > 0 && key(s[0]) > key(x) ==> Insert(x, s, key)[0] == s[0]
  {
    if |s| > 0 && key(s[0]) > key(x) {
      InsertSorted(x, s[1..], key);
      var t := Insert(x, s[1..], key);
      assert forall k :: 0 <= k < |t| ==> key(t[k]) <= key(s[0]) by {
        assert multiset(t) == multiset(s[1..]) + multiset{x};
        forall k | 0 <= k < |t|
          ensures key(t[k]) <= key(s[0])
        {
          assert t[k] in multiset(t);
          if t[k] != x {
            assert t[k] in multiset(s[1..]);
            var m :| 0 <= m < |s[1..]| && s[1..][m] == t[k];
            assert s[m + 1] == t[k];
          }
        }
      }
    }
  }

  /** Inserting x adds x to its own key's group, in front, and nothing to the others. */
  lemma {:induction false} InsertWithKey<T>(x: T, s: seq<T>, key: T -> int, v: int)
    requires SortedDesc(s, key)
    ensures WithKey(Insert(x, s, key), key, v) ==
      (if key(x) == v then [x] + WithKey(s, key, v) else WithKey(s, key, v))
  {
    if |s| == 0 || key(s[0]) <= key(x) {
      assert ([x] + s)[1..] == s;
    } else {
      InsertWithKey(x, s[1..], key, v);
      var r := Insert(x, s, key);
      assert r[1..] == Insert(x, s[1..], key);
      if key(x) == v {
        NoKeyAbove(s[1..], key, v);
        NoKeyAbove(s, key, v);
      }
    }
  }

  /** A key group is empty exactly when no element has that key. */
  lemma {:induction false} NoKeyAbove<T>(s: seq<T>, key: T -> int, v: int)
    ensures WithKey(s, key, v) == [] <==> forall k :: 0 <= k < |s| ==> key(s[k]) != v
  {
    if |s| > 0 {
      NoKeyAbove(s[1..], key, v);
      assert forall k :: 0 < k < |s| ==> s[k] == s[1..][k - 1];
    }
  }

  /**
   * The sort orders by descending key, keeps every key group exactly as it
   * was (stability), and so is a permutation of its input.
   */
  lemma {:induction false} SortDescCorrect<T>(s: seq<T>, key: T -> int)
    ensures SortedDesc(SortDesc(s, key), key)
    ensures forall v :: WithKey(SortDesc(s, key), key, v) == WithKey(s, key, v)
    ensures multiset(SortDesc(s, key)) == multiset(s)
  {
    if |s| > 0 {
      SortDescCorrect(s[1..], key);
      var t := SortDesc(s[1..], key);
      InsertSorted(s[0], t, key);
      forall v
        ensures WithKey(SortDesc(s, key), key, v) == WithKey(s, key, v)
      {
        InsertWithKey(s[0], t, key, v);
      }
    }
  }
}

=== FILE: suggest.dfy ===
/**
 * The guards of server/api/ai/suggest.post.ts: the token-bucket rate
 * limiter, the expiring in-memory cache, the climbing-keyword prompt check,
 * the retry policy around the language-model call, and the order in which
 * the handler applies them. The clock reading, the model's replies and the
 * request's identity are inputs.
 */
module Suggest {
  import opened Wrappers
  import opened Text
  import opened Retry

  // ---------------------------------------------------------------------
  // Token bucket

  datatype Bucket = Bucket(tokens: int, last: int)

  /** The verdict and the bucket table after the check. */
  datatype Checked = Checked(allowed: bool, buckets: map<string, Bucket>)

  /** Limits: 5 requests per caller and 30 to the model, per minute. */
  const CallerRate := 5
  const GlobalRate := 30
  const PeriodMs := 60_000
  const GlobalKey := "OPENAI_GLOBAL"

  /** The bucket for `k`; a new key starts full at `now`. */
  function BucketOf(buckets: map<string, Bucket>, k: string, rate: int, now: int): Bucket {
    if k in buckets then buckets[k] else Bucket(rate, now)
  }

  /** Tokens after refilling `rate` for every whole period elapsed, capped at `rate`. */
  function Refill(b: Bucket, rate: int, perMs: int, now: int): (t: int)
    requires perMs > 0
    ensures t <= rate
    ensures 0 <= now - b.last < perMs ==> t == (if b.tokens < rate then b.tokens else rate)
    ensures now - b.last >= perMs && rate >= 0 && b.tokens >= 0 ==> t == rate
  {
    var periods := (now - b.last) / perMs;
    var refilled := b.tokens + periods * rate;
    assert periods >= 1 && rate >= 0 && b.tokens >= 0 ==> refilled >= rate by {
      if periods >= 1 && rate >= 0 && b.tokens >= 0 {
        MulAtLeast(periods, rate);
      }
    }
    if rate < refilled then rate else refilled
  }

  lemma MulAtLeast(p: int, r: int)
    requires p >= 1 && r >= 0
    ensures p * r >= r
  {
  }

  /** A whole number of periods leaves no remainder. */
  lemma WholePeriods(p: int, perMs: int)
    requires perMs > 0
    ensures (p * perMs) % perMs == 0
  {
    var q, r := (p * perMs) / perMs, (p * perMs) % perMs;
    assert p * perMs == q * perMs + r;
    assert (p - q) * perMs == r;
    MulSign(p - q, perMs);
  }

  lemma MulSign(d: int, m: int)
    requires m > 0
    ensures d >= 1 ==> d * m >= m
    ensures d <= -1 ==> d * m <= -m
  {
  }

  /** `bucketCheck(k, rate, perMs)` at time `now`. */
  function BucketCheck(buckets: map<string, Bucket>, k: string, rate: int, perMs: int, now: int): (c: Checked)
    requires perMs > 0
    ensures c.buckets.Keys == buckets.Keys + {k}
    ensures forall k2 :: k2 in buckets && k2 != k ==> c.buckets[k2] == buckets[k2]
    ensures c.buckets[k].tokens <= rate
    ensures 0 <= now - c.buckets[k].last < perMs
    ensures (c.buckets[k].last - BucketOf(buckets, k, rate, now).last) % perMs == 0
    ensures var t := Refill(BucketOf(buckets, k, rate, now), rate, perMs, now);
      && (c.allowed <==> t > 0)
      && c.buckets[k].tokens == (if c.allowed then t - 1 else t)
  {
    var b := BucketOf(buckets, k, rate, now);
    var periods := (now - b.last) / perMs;
    var t := Refill(b, rate, perMs, now);
    var b' := Bucket(t, b.last + periods * perMs);
    WholePeriods(periods, perMs);
    if t <= 0 then Checked(false, buckets[k := b'])
    else Checked(true, buckets[k := b'.(tokens := t - 1)])
  }

  /** How many of a sequence of checks on one key, at the given times, are allowed. */
  function Allowed(buckets: map<string, Bucket>, k: string, rate: int, perMs: int, times: seq<int>): (n: nat)
    requires perMs > 0
    ensures n <= |times|
    decreases |times|
  {
    if |times| == 0 then 0
    else
      var c := BucketCheck(buckets, k, rate, perMs, times[0]);
      (if c.allowed then 1 else 0) + Allowed(c.buckets, k, rate, perMs, times[1..])
  }

  function Min(a: int, b: int): int { if a <= b then a else b }

  /** Within one period of the bucket's mark, exactly its remaining tokens are allowed. */
  lemma {:induction false} AllowedWithinPeriod(buckets: map<string, Bucket>, k: string, rate: int, perMs: int, times: seq<int>)
    requires perMs > 0 && k in buckets
    requires 0 <= buckets[k].tokens <= rate
    requires forall i :: 0 <= i < |times| ==> buckets[k].last <= times[i] < buckets[k].last + perMs
    ensures Allowed(buckets, k, rate, perMs, times) == Min(|times|, buckets[k].tokens)
    decreases |times|
  {
    if |times| > 0 {
      var c := BucketCheck(buckets, k, rate, perMs, times[0]);
      assert (times[0] - buckets[k].last) / perMs == 0;
      assert c.buckets[k].last == buckets[k].last;
      AllowedWithinPeriod(c.buckets, k, rate, perMs, times[1..]);
    }
  }

  /**
   * A key never seen before starts full: of any run of checks within one
   * period of the first, exactly `min(n, rate)` are allowed.
   */
  lemma NewKeyAllowsRate(buckets: map<string, Bucket>, k: string, rate: int, perMs: int, times: seq<int>)
    requires perMs > 0 && k !in buckets && rate >= 0 && |times| > 0
    requires forall i :: 0 <= i < |times| ==> times[0] <= times[i] < times[0] + perMs
    ensures Allowed(buckets, k, rate, perMs, times) == Min(|times|, rate)
  {
    var c := BucketCheck(buckets, k, rate, perMs, times[0]);
    assert c.buckets[k].last == times[0];
    AllowedWithinPeriod(c.buckets, k, rate, perMs, times[1..]);
  }

  /** Six requests from a new caller within a minute: the sixth is refused. */
  lemma SixthCallRefused(buckets: map<string, Bucket>, k: string, times: seq<int>)
    requires k !in buckets && |times| == 6
    requires forall i :: 0 <= i < 6 ==> times[0] <= times[i] < times[0] + PeriodMs
    ensures Allowed(buckets, k, CallerRate, PeriodMs, times) == 5
  {
    NewKeyAllowsRate(buckets, k, CallerRate, PeriodMs, times);
  }

  /** A refused check takes no token; an allowed one takes exactly one. */
  lemma CheckConsumes(buckets: map<string, Bucket>, k: string, rate: int, perMs: int, now: int)
    requires perMs > 0 && k in buckets && 0 <= now - buckets[k].last < perMs && buckets[k].tokens <= rate
    ensures var c := BucketCheck(buckets, k, rate, perMs, now);
      (c.allowed <==> buckets[k].tokens > 0)
      && c.buckets[k].tokens == (if c.allowed then buckets[k].tokens - 1 else buckets[k].tokens)
      && c.buckets[k].last == buckets[k].last
  {
    var b := buckets[k];
    assert BucketOf(buckets, k, rate, now) == b;
    assert Refill(b, rate, perMs, now) == b.tokens;
    assert (now - b.last) / perMs == 0;
  }

  /** The caller key `ip|user-agent`. */
  function CallerKey(ip: string, userAgent: string): (k: string)
    ensures '|' in k
  {
    var k := ip + "|" + userAgent;
    assert k[|ip|] == '|';
    k
  }

  /** Callers and the model share no bucket. */
  lemma CallerIsNotGlobal(ip: string, userAgent: string)
    ensures CallerKey(ip, userAgent) != GlobalKey
  {
    assert '|' !in GlobalKey;
  }

  // ---------------------------------------------------------------------
  // Expiring cache

  datatype Entry<V> = Entry(value: V, exp: int)

  /** `cacheGet(map, key)`: the value, or nothing; an expired entry is deleted. */
  function CacheGet<K, V>(m: map<K, Entry<V>>, key: K, now: int): (r: (Option<V>, map<K, Entry<V>>))
    ensures key !in m ==> r.0.None? && r.1 == m
    ensures key in m && m[key].exp != 0 && m[key].exp < now ==> r.0.None? && r.1 == m - {key}
    ensures key in m && (m[key].exp == 0 || m[key].exp >= now) ==> r.0 == Some(m[key].value) && r.1 == m
  {
    if key !in m then (None, m)
    else if m[key].exp != 0 && m[key].exp < now then (None, m - {key})
    else (Some(m[key].value), m)
  }

  /** `cacheSet(map, key, value, ttlMs)` */
  function CacheSet<K, V>(m: map<K, Entry<V>>, key: K, value: V, ttlMs: int, now: int): (r: map<K, Entry<V>>)
    ensures r.Keys == m.Keys + {key}
    ensures r[key] == Entry(value, now + ttlMs)
    ensures forall k :: k in m && k != key ==> r[k] == m[k]
  {
    m[key := Entry(value, now + ttlMs)]
  }

  /** A value set is read back until its expiry time, inclusive, and gone after it. */
  lemma SetThenGet<K, V>(m: map<K, Entry<V>>, key: K, value: V, ttlMs: int, setAt: int, now: int)
    requires setAt + ttlMs != 0
    ensures var got := CacheGet(CacheSet(m, key, value, ttlMs, setAt), key, now).0;
      (now <= setAt + ttlMs ==> got == Some(value)) && (now > setAt + ttlMs ==> got.None?)
  {
  }

  /** Reading one key never disturbs another. */
  lemma GetKeepsOthers<K, V>(m: map<K, Entry<V>>, key: K, other: K, now: int)
    requires other != key && other in m
    ensures var r := CacheGet(m, key, now).1; other in r && r[other] == m[other]
  {
  }

  // ---------------------------------------------------------------------
  // Prompt check

  const Keywords := ["climb", "climbing", "crag", "boulder", "trad", "sport", "mountain", "route"]

  /** Some keyword of the list occurs in s. */
  predicate MentionsAny(s: string, kws: seq<string>) {
    |kws| > 0 && (Contains(s, kws[0]) || MentionsAny(s, kws[1..]))
  }

  lemma {:induction false} MentionsAnyIff(s: string, kws: seq<string>)
    ensures MentionsAny(s, kws) <==> exists k :: 0 <= k < |kws| && Contains(s, kws[k])
  {
    if |kws| > 0 {
      MentionsAnyIff(s, kws[1..]);
      if Contains(s, kws[0]) {
      } else if MentionsAny(s, kws[1..]) {
        var k :| 0 <= k < |kws[1..]| && Contains(s, kws[1..][k]);
        assert kws[k + 1] == kws[1..][k];
      } else {
        forall k | 0 <= k < |kws|
          ensures !Contains(s, kws[k])
        {
          if k > 0 {
            assert kws[k] == kws[1..][k - 1];
          }
        }
      }
    }
  }

  /** `ensureClimbingOnly(prompt)` */
  predicate EnsureClimbingOnly(prompt: string) {
    MentionsAny(Lower(prompt), Keywords)
  }

  /** The prompt passes exactly when its lower-cased text contains a keyword. */
  lemma EnsureClimbingOnlyIff(prompt: string)
    ensures EnsureClimbingOnly(prompt) <==> exists k :: 0 <= k < |Keywords| && Contains(Lower(prompt), Keywords[k])
  {
    MentionsAnyIff(Lower(prompt), Keywords);
  }

  /** Anything containing "climbing" contains "climb", so that keyword is redundant. */
  lemma {:induction false} ClimbingImpliesClimb(s: string)
    ensures Contains(s, "climbing") ==> Contains(s, "climb")
  {
    if StartsWith(s, "climbing") {
      assert s[..5] == s[..8][..5];
    } else if |s| > 0 {
      ClimbingImpliesClimb(s[1..]);
    }
  }

  /** Case does not matter: "Bouldering" passes. */
  lemma UpperCaseKeyword()
    ensures EnsureClimbingOnly("Bouldering")
  {
    assert Lower("Bouldering") == "bouldering";
    assert StartsWith("bouldering", "boulder");
  }

  // ---------------------------------------------------------------------
  // Model call and its retries

  /** One model call: a reply (whose content may be missing) or an error with a status (0 if none). */
  datatype LlmAttempt = Replied(content: Option<string>) | Failed(status: int)

  /** Why the plain ranked list was shown instead of the model's answer. */
  datatype FallbackReason = NoKey | GlobalLimited | RequestLimited

  datatype Answer = Html(html: string) | RankedList(reason: FallbackReason)

  datatype LlmRun = LlmRun(answer: Answer, calls: nat, delays: seq<nat>)

  const LlmAttempts := 3
  const NoResponse := "<p>No response</p>"

  /** 429 and 5xx are worth retrying. */
  predicate Retryable(status: int) { status == 429 || (500 <= status < 600) }

  /** The first n calls all failed with a retryable status. */
  predicate RetriedAll(outcome: nat -> LlmAttempt, n: nat) {
    forall j :: 0 <= j < n ==> outcome(j).Failed? && Retryable(outcome(j).status)
  }

  /** `resp.choices[0].message.content || '<p>No response</p>'` */
  function ReplyHtml(content: Option<string>): (html: string)
    ensures html != ""
    ensures content.Some? && content.value != "" ==> html == content.value
    ensures content.None? || content.value == "" ==> html == NoResponse
  {
    if content.Some? && content.value != "" then content.value else NoResponse
  }

  /** `500 * Math.pow(2, i)` milliseconds. */
  function LlmBackoff(i: nat): nat { 500 * Pow2(i) }

  /**
   * The retry loop: a reply ends it; a retryable error sleeps and tries
   * again; any other error stops at once; after three attempts the ranked
   * list is shown.
   */
  method LlmRetry(outcome: nat -> LlmAttempt) returns (run: LlmRun)
    ensures 1 <= run.calls <= LlmAttempts
    ensures RetriedAll(outcome, run.calls - 1)
    ensures run.answer.Html? <==> outcome(run.calls - 1).Replied?
    ensures run.answer.Html? ==> run.answer.html == ReplyHtml(outcome(run.calls - 1).content)
    ensures run.answer.RankedList? ==> run.answer.reason == RequestLimited
    ensures run.answer.RankedList? && run.calls < LlmAttempts ==> !Retryable(outcome(run.calls - 1).status)
    ensures |run.delays| == (if RetriedAll(outcome, run.calls) then run.calls else run.calls - 1)
    ensures forall k :: 0 <= k < |run.delays| ==> run.delays[k] == LlmBackoff(k)
  {
    var i := 0;
    var delays: seq<nat> := [];
    while i < LlmAttempts
      invariant i <= LlmAttempts
      invariant RetriedAll(outcome, i)
      invariant |delays| == i
      invariant forall k :: 0 <= k < i ==> delays[k] == LlmBackoff(k)
    {
      match outcome(i) {
        case Replied(content) =>
          return LlmRun(Html(ReplyHtml(content)), i + 1, delays);
        case Failed(status) =>
          if !Retryable(status) {
            return LlmRun(RankedList(RequestLimited), i + 1, delays);
          }
      }
      delays := delays + [LlmBackoff(i)];
      i := i + 1;
    }
    return LlmRun(RankedList(RequestLimited), LlmAttempts, delays);
  }

  /**
   * The answer of a model run that made `calls` calls: every call before
   * the last failed with a retryable status, and the last call's reply (or
   * "No response") is shown, or the ranked list if the last call failed.
   */
  predicate ModelAnswered(outcome: nat -> LlmAttempt, answer: Answer, calls: nat) {
    && 1 <= calls <= LlmAttempts
    && RetriedAll(outcome, calls - 1)
    && (answer.Html? <==> outcome(calls - 1).Replied?)
    && (answer.Html? ==> answer.html == ReplyHtml(outcome(calls - 1).content))
    && (answer.RankedList? ==> answer.reason == RequestLimited)
    && (answer.RankedList? && calls < LlmAttempts ==> !Retryable(outcome(calls - 1).status))
  }

  /**
   * `llmSuggest`: without a key, or when the model's own bucket refuses,
   * the ranked list is shown and the model is not called; otherwise the
   * retried model call answers.
   */
  method LlmSuggest(hasKey: bool, buckets: map<string, Bucket>, now: int, outcome: nat -> LlmAttempt)
    returns (answer: Answer, buckets': map<string, Bucket>, calls: nat)
    ensures !hasKey ==> answer == RankedList(NoKey) && calls == 0 && buckets' == buckets
    ensures hasKey ==> buckets' == BucketCheck(buckets, GlobalKey, GlobalRate, PeriodMs, now).buckets
    ensures hasKey && !BucketCheck(buckets, GlobalKey, GlobalRate, PeriodMs, now).allowed ==>
      answer == RankedList(GlobalLimited) && calls == 0
    ensures hasKey && BucketCheck(buckets, GlobalKey, GlobalRate, PeriodMs, now).allowed ==>
      && 1 <= calls <= LlmAttempts
      && RetriedAll(outcome, calls - 1)
      && (answer.Html? <==> outcome(calls - 1).Replied?)
      && (answer.Html? ==> answer.html == ReplyHtml(outcome(calls - 1).content))
      && (answer.RankedList? ==> answer.reason == RequestLimited)
      && (answer.RankedList? && calls < LlmAttempts ==> !Retryable(outcome(calls - 1).status))
  {
    if !hasKey {
      return RankedList(NoKey), buckets, 0;
    }
    var c := BucketCheck(buckets, GlobalKey, GlobalRate, PeriodMs, now);
    buckets' := c.buckets;
    if !c.allowed {
      return RankedList(GlobalLimited), buckets', 0;
    }
    var run := LlmRetry(outcome);
    answer, calls := run.answer, run.calls;
  }

  // ---------------------------------------------------------------------
  // The handler

  /**
   * The answer cache's key: the prompt and the serialised preferences,
   * which `JSON.stringify({ prompt, prefs })` encodes injectively.
   */
  datatype AnswerKey = AnswerKey(prompt: string, prefsJson: string)

  /** The in-memory state: the rate-limit buckets and the cached answers. */
  datatype State = State(buckets: map<string, Bucket>, cache: map<AnswerKey, Entry<Answer>>)

  datatype HttpError = HttpError(status: int, message: string)

  const TooManyRequests := HttpError(429, "Rate limit")
  const TooShort := HttpError(400, "Prompt too short")
  const OffTopic := HttpError(400, "Prompt must relate to climbing")
  const MinPromptLength := 8
  const AnswerTtlMs := 5 * 60 * 1000

  /**
   * The handler: rate limit, then prompt length (in UTF-16 code units),
   * then keywords, then the answer cache, then the model; a fresh answer is
   * cached for five minutes.
   */
  method Handle(st: State, ip: string, userAgent: string, prompt: string, prefsJson: string,
                hasKey: bool, now: int, outcome: nat -> LlmAttempt)
    returns (r: Result<Answer, HttpError>, st': State, calls: nat)
    ensures var c := BucketCheck(st.buckets, CallerKey(ip, userAgent), CallerRate, PeriodMs, now);
      && (!c.allowed ==> r == Err(TooManyRequests) && calls == 0)
      && (c.allowed && Utf16Length(prompt) < MinPromptLength ==> r == Err(TooShort) && calls == 0)
      && (c.allowed && Utf16Length(prompt) >= MinPromptLength && !EnsureClimbingOnly(prompt) ==> r == Err(OffTopic) && calls == 0)
    ensures r.Ok? ==>
      && BucketCheck(st.buckets, CallerKey(ip, userAgent), CallerRate, PeriodMs, now).allowed
      && Utf16Length(prompt) >= MinPromptLength && EnsureClimbingOnly(prompt)
    ensures var got := CacheGet(st.cache, AnswerKey(prompt, prefsJson), now).0;
      r.Ok? && got.Some? ==> r.value == got.value && calls == 0
    ensures var got := CacheGet(st.cache, AnswerKey(prompt, prefsJson), now).0;
      r.Ok? && got.None? ==>
        && AnswerKey(prompt, prefsJson) in st'.cache
        && st'.cache[AnswerKey(prompt, prefsJson)] == Entry(r.value, now + AnswerTtlMs)
    // a request that passes the three guards is answered
    ensures var c := BucketCheck(st.buckets, CallerKey(ip, userAgent), CallerRate, PeriodMs, now);
      c.allowed && Utf16Length(prompt) >= MinPromptLength && EnsureClimbingOnly(prompt) ==> r.Ok?
    // a refused request only spends the caller's token
    ensures r.Err? ==> st' == st.(buckets := BucketCheck(st.buckets, CallerKey(ip, userAgent), CallerRate, PeriodMs, now).buckets)
    // a cache hit leaves the buckets as the caller's check left them
    ensures var got := CacheGet(st.cache, AnswerKey(prompt, prefsJson), now);
      r.Ok? && got.0.Some? ==>
        st' == State(BucketCheck(st.buckets, CallerKey(ip, userAgent), CallerRate, PeriodMs, now).buckets, got.1)
    // on a miss the model path answers, as LlmSuggest states, and its answer is cached
    ensures var c := BucketCheck(st.buckets, CallerKey(ip, userAgent), CallerRate, PeriodMs, now);
      var got := CacheGet(st.cache, AnswerKey(prompt, prefsJson), now);
      var g := BucketCheck(c.buckets, GlobalKey, GlobalRate, PeriodMs, now);
      r.Ok? && got.0.None? ==>
        && st'.cache == CacheSet(got.1, AnswerKey(prompt, prefsJson), r.value, AnswerTtlMs, now)
        && (!hasKey ==> r.value == RankedList(NoKey) && calls == 0 && st'.buckets == c.buckets)
        && (hasKey ==> st'.buckets == g.buckets)
        && (hasKey && !g.allowed ==> r.value == RankedList(GlobalLimited) && calls == 0)
        && (hasKey && g.allowed ==> ModelAnswered(outcome, r.value, calls))
  {
    var c := BucketCheck(st.buckets, CallerKey(ip, userAgent), CallerRate, PeriodMs, now);
    st' := st.(buckets := c.buckets);
    calls := 0;
    if !c.allowed {
      return Err(TooManyRequests), st', 0;
    }
    if Utf16Length(prompt) < MinPromptLength {
      return Err(TooShort), st', 0;
    }
    if !EnsureClimbingOnly(prompt) {
      return Err(OffTopic), st', 0;
    }
    var key := AnswerKey(prompt, prefsJson);
    var (got, cache) := CacheGet(st'.cache, key, now);
    st' := st'.(cache := cache);
    if got.Some? {
      return Ok(got.value), st', 0;
    }
    var answer, buckets;
    answer, buckets, calls := LlmSuggest(hasKey, st'.buckets, now, outcome);
    st' := State(buckets, CacheSet(st'.cache, key, answer, AnswerTtlMs, now));
    r := Ok(answer);
  }
}

=== FILE: text.dfy ===
/**
 * The string primitives the source leans on: `startsWith`, `split`, `join`,
 * `trim`, `toLowerCase`, substring search, decimal rendering with
 * `padStart(2, '0')`, and `Number(...)` on digit strings.
 */
module Text {
  import opened Wrappers

  predicate StartsWith(s: string, prefix: string) {
    |prefix| <= |s| && s[..|prefix|] == prefix
  }

  /** `s.includes(needle)` */
  predicate Contains(s: string, needle: string) {
    StartsWith(s, needle) || (|s| > 0 && Contains(s[1..], needle))
  }

  /** `s.slice(0, n)` */
  function Take(s: string, n: nat): (r: string)
    ensures |r| <= n && StartsWith(s, r)
    ensures |s| >= n ==> |r| == n
  {
    if |s| <= n then s else s[..n]
  }

  /** `s.split(sep)` for a one-character separator. */
  function Split(s: string, sep: char): (parts: seq<string>)
    ensures |parts| >= 1
    ensures forall k :: 0 <= k < |parts| ==> sep !in parts[k]
  {
    if |s| == 0 then [""]
    else
      var rest := Split(s[1..], sep);
      if s[0] == sep then [""] + rest
      else [[s[0]] + rest[0]] + rest[1..]
  }

  /** `parts.join(sep)` */
  function Join(parts: seq<string>, sep: char): string {
    if |parts| == 0 then ""
    else if |parts| == 1 then parts[0]
    else parts[0] + [sep] + Join(parts[1..], sep)
  }

  lemma JoinThree(a: string, b: string, c: string, sep: char)
    ensures Join([a, b, c], sep) == a + [sep] + b + [sep] + c
  {
    assert [b, c][1..] == [c];
    assert Join([b, c], sep) == b + [sep] + c;
    assert [a, b, c][1..] == [b, c];
  }

  /** Splitting undoes joining when no part holds the separator. */
  lemma {:induction false} SplitJoin(parts: seq<string>, sep: char)
    requires |parts| >= 1
    requires forall k :: 0 <= k < |parts| ==> sep !in parts[k]
    ensures Split(Join(parts, sep), sep) == parts
  {
    if |parts| == 1 {
      SplitNoSep(parts[0], sep);
    } else {
      SplitJoin(parts[1..], sep);
      SplitPrefix(parts[0], Join(parts[1..], sep), sep);
    }
  }

  lemma {:induction false} SplitNoSep(s: string, sep: char)
    requires sep !in s
    ensures Split(s, sep) == [s]
  {
    if |s| > 0 {
      SplitNoSep(s[1..], sep);
      assert s[0] in s;
      assert [s[0]] + s[1..] == s;
    }
  }

  lemma {:induction false} SplitPrefix(a: string, b: string, sep: char)
    requires sep !in a
    ensures Split(a + [sep] + b, sep) == [a] + Split(b, sep)
  {
    if |a| == 0 {
      assert a + [sep] + b == [sep] + b;
      assert ([sep] + b)[1..] == b;
    } else {
      SplitPrefix(a[1..], b, sep);
      assert (a + [sep] + b)[1..] == a[1..] + [sep] + b;
      assert (a + [sep] + b)[0] == a[0];
      assert a[0] in a;
      assert [a[0]] + a[1..] == a;
    }
  }

  /** Joining undoes splitting, so distinct comma-free lists join differently. */
  lemma JoinInjective(xs: seq<string>, ys: seq<string>, sep: char)
    requires |xs| >= 1 && |ys| >= 1
    requires forall k :: 0 <= k < |xs| ==> sep !in xs[k]
    requires forall k :: 0 <= k < |ys| ==> sep !in ys[k]
    requires Join(xs, sep) == Join(ys, sep)
    ensures xs == ys
  {
    SplitJoin(xs, sep);
    SplitJoin(ys, sep);
  }

  predicate IsDigit(c: char) { '0' <= c <= '9' }

  predicate AllDigits(s: string) {
    forall i :: 0 <= i < |s| ==> IsDigit(s[i])
  }

  /** Value of a string of decimal digits. */
  function DigitsValue(s: string): nat
    requires AllDigits(s)
  {
    if |s| == 0 then 0
    else 10 * DigitsValue(s[..|s| - 1]) + ((s[|s| - 1] as int) - ('0' as int))
  }

  /** `String(n)` for a natural number: shortest decimal rendering. */
  function NatToString(n: nat): (s: string)
    ensures |s| >= 1 && AllDigits(s)
    ensures n < 10 <==> |s| == 1
    ensures |s| == 1 || s[0] != '0'
    ensures DigitsValue(s) == n
  {
    if n < 10 then [('0' as int + n) as char]
    else
      var p := NatToString(n / 10);
      var s := p + [('0' as int + n % 10) as char];
      assert s[..|s| - 1] == p;
      s
  }

  lemma {:induction false} NatToStringLength(n: nat, k: nat)
    requires Pow10(k) <= n < Pow10(k + 1)
    ensures |NatToString(n)| == k + 1
  {
    if k > 0 {
      NatToStringLength(n / 10, k - 1);
    }
  }

  function Pow10(k: nat): (p: nat)
    ensures p >= 1
  {
    if k == 0 then 1 else 10 * Pow10(k - 1)
  }

  /** `String(n).padStart(2, '0')` */
  function Pad2(n: nat): (s: string)
    ensures AllDigits(s) && DigitsValue(s) == n
    ensures n < 100 ==> |s| == 2
  {
    var d := NatToString(n);
    if |d| >= 2 then d
    else
      var s := "0" + d;
      assert s[..1] == "0";
      s
  }

  /**
   * `Number(s)` restricted to the forms the model admits: the empty string
   * reads as 0, a run of decimal digits as its value; anything else is NaN.
   */
  function ToNumber(s: string): (r: Option<nat>)
    ensures r.Some? <==> AllDigits(s)
    ensures r.Some? ==> r.value == DigitsValue(s)
  {
    if AllDigits(s) then Some(DigitsValue(s)) else None
  }

  /** Space, tab, line feed, vertical tab, form feed and carriage return. */
  predicate IsSpace(c: char) {
    c == ' ' || c == '\t' || c == '\n' || c == '\U{000B}' || c == '\U{000C}' || c == '\r'
  }

  predicate AllSpace(s: string) {
    forall i :: 0 <= i < |s| ==> IsSpace(s[i])
  }

  /**
   * `s.trim()` over the six ASCII whitespace characters: the contiguous
   * part of s left between its leading and its trailing whitespace.
   */
  function Trim(s: string): (r: string)
    ensures |r| <= |s|
    ensures |r| > 0 ==> !IsSpace(r[0]) && !IsSpace(r[|r| - 1])
    ensures AllSpace(s) <==> r == ""
    ensures exists i, j :: 0 <= i <= j <= |s| && r == s[i..j] && AllSpace(s[..i]) && AllSpace(s[j..])
  {
    var t := TrimStart(s);
    CutSlice(s, t, TrimEnd(t));
    TrimEnd(t)
  }

  /**
   * Cutting whitespace off the front of s (giving t) and then off the back
   * of t (giving r) leaves a slice of s with whitespace on both sides.
   */
  lemma CutSlice(s: string, t: string, r: string)
    requires |t| <= |s| && t == s[|s| - |t|..] && forall k :: 0 <= k < |s| - |t| ==> IsSpace(s[k])
    requires |r| <= |t| && r == t[..|r|] && forall k :: |r| <= k < |t| ==> IsSpace(t[k])
    ensures var i := |s| - |t|; var j := i + |r|;
      r == s[i..j] && AllSpace(s[..i]) && AllSpace(s[j..])
  {
    SliceOfSuffix(s, t, r);
    LeadingCut(s, |s| - |t|);
    TrailingCut(s, t, |r|);
  }

  lemma SliceOfSuffix(s: string, t: string, r: string)
    requires |t| <= |s| && t == s[|s| - |t|..]
    requires |r| <= |t| && r == t[..|r|]
    ensures r == s[|s| - |t|..|s| - |t| + |r|]
  {
  }

  lemma LeadingCut(s: string, i: int)
    requires 0 <= i <= |s|
    requires forall k :: 0 <= k < i ==> IsSpace(s[k])
    ensures AllSpace(s[..i])
  {
    forall k | 0 <= k < i
      ensures IsSpace(s[..i][k])
    {
      assert s[..i][k] == s[k];
    }
  }

  lemma TrailingCut(s: string, t: string, n: int)
    requires |t| <= |s| && t == s[|s| - |t|..] && 0 <= n <= |t|
    requires forall k :: n <= k < |t| ==> IsSpace(t[k])
    ensures AllSpace(s[|s| - |t| + n..])
  {
    var j := |s| - |t| + n;
    forall k | 0 <= k < |s| - j
      ensures IsSpace(s[j..][k])
    {
      assert s[j..][k] == t[n + k];
    }
  }

  /** Trimming keeps only characters of the original. */
  lemma TrimSubsequence(s: string)
    ensures forall k :: 0 <= k < |Trim(s)| ==> Trim(s)[k] in s
  {
    var t := TrimStart(s);
    var r := TrimEnd(t);
    assert Trim(s) == r;
    forall k | 0 <= k < |r|
      ensures r[k] in s
    {
      PrefixAt(t, r, k);
      SuffixAt(s, t, k);
      assert r[k] == s[|s| - |t| + k];
    }
  }

  lemma PrefixAt(t: string, r: string, k: int)
    requires |r| <= |t| && r == t[..|r|] && 0 <= k < |r|
    ensures r[k] == t[k]
  {
  }

  lemma SuffixAt(s: string, t: string, k: int)
    requires |t| <= |s| && t == s[|s| - |t|..] && 0 <= k < |t|
    ensures t[k] == s[|s| - |t| + k]
  {
  }

  /** Leading whitespace removed. */
  function TrimStart(s: string): (r: string)
    ensures |r| <= |s| && r == s[|s| - |r|..]
    ensures forall i :: 0 <= i < |s| - |r| ==> IsSpace(s[i])
    ensures |r| > 0 ==> !IsSpace(r[0])
  {
    if |s| > 0 && IsSpace(s[0]) then
      var r := TrimStart(s[1..]);
      assert s[1..][|s| - 1 - |r|..] == s[|s| - |r|..];
      assert forall i :: 1 <= i < |s| - |r| ==> s[i] == s[1..][i - 1];
      r
    else s
  }

  /** Trailing whitespace removed. */
  function TrimEnd(s: string): (r: string)
    ensures |r| <= |s| && r == s[..|r|]
    ensures forall i :: |r| <= i < |s| ==> IsSpace(s[i])
    ensures |r| > 0 ==> !IsSpace(r[|r| - 1])
    ensures |r| > 0 && !IsSpace(s[0]) ==> !IsSpace(r[0])
  {
    if |s| > 0 && IsSpace(s[|s| - 1]) then
      var r := TrimEnd(s[..|s| - 1]);
      assert s[..|s| - 1][..|r|] == s[..|r|];
      assert forall i :: |r| <= i < |s| - 1 ==> s[i] == s[..|s| - 1][i];
      r
    else s
  }

  /**
   * `s.length`: the number of UTF-16 code units, where a character above
   * U+FFFF takes a surrogate pair.
   */
  function Utf16Length(s: string): (n: nat)
    ensures |s| <= n <= 2 * |s|
    ensures (forall i :: 0 <= i < |s| ==> s[i] as int <= 0xFFFF) ==> n == |s|
    ensures (forall i :: 0 <= i < |s| ==> s[i] as int > 0xFFFF) ==> n == 2 * |s|
  {
    if |s| == 0 then 0
    else (if s[0] as int > 0xFFFF then 2 else 1) + Utf16Length(s[1..])
  }

  /** The code-unit length adds up over concatenation. */
  lemma {:induction false} Utf16LengthAppend(a: string, b: string)
    ensures Utf16Length(a + b) == Utf16Length(a) + Utf16Length(b)
  {
    if |a| == 0 {
      assert a + b == b;
    } else {
      assert (a + b)[0] == a[0] && (a + b)[1..] == a[1..] + b;
      Utf16LengthAppend(a[1..], b);
    }
  }

  /** `toLowerCase` over ASCII letters. */
  function LowerChar(c: char): char {
    if 'A' <= c <= 'Z' then (c as int + 32) as char else c
  }

  function Lower(s: string): (r: string)
    ensures |r| == |s|
    ensures forall i :: 0 <= i < |s| ==> r[i] == LowerChar(s[i])
  {
    seq(|s|, i requires 0 <= i < |s| => LowerChar(s[i]))
  }
}

=== FILE: wrappers.dfy ===
/** Option and Result, the failure-carrying datatypes used throughout the model. */
module Wrappers {

  /** A value that may be absent (the source's `null` / `undefined`). */
  datatype Option<+T> = None | Some(value: T) {
    function GetOr(default: T): T {
      match this
      case Some(v) => v
      case None => default
    }
  }

  /** Either a value or an error (the source's thrown HTTP errors). */
  datatype Result<+R, +E> = Ok(value: R) | Err(error: E)
}
